=== FILE: README.md ===
# rabbitGo time-series forecasting core, in Dafny

This project models the pure core of the `/analyze` endpoint of the rabbitGo
time-series service (`api.py`). One request analyses the general score
series and then each of seven categories. For each series it:

- buckets the score records by calendar month and averages each month;
- lays the means over every month from the first to the last;
- fills empty months by positional linear interpolation;
- applies the history guard (fewer than four months gives no forecast) and
  chooses a seasonal period;
- asks a Holt-Winters model for five months of predictions, running from the
  second-to-last observed month to three months past the last;
- shapes the series and the predictions into records dated by month name.

Finally it combines the category records onto the general series' month
names. Each category's field names are looked up by the position of its
result in the list of results.

Modules, in dependency order:

- `Wrappers`: `Option` and `Result`.
- `Months`: calendar months as integer indices `year * 12 + (month - 1)`, and
  the month-name labels that `%B` formatting produces.
- `SeriesBuilder`: monthly bucketing, means, the full-range layout and
  interpolation. `Interpolate` is the reference definition and `FillGaps` is
  a one-pass implementation.
- `Forecaster`: the guard, `SeasonalPeriod`, `ForecastWindow` and `Analyze`.
  The numerical library (seasonal decomposition plus exponential smoothing)
  is the parameter `lib`. It either returns the fitted model's prediction
  function, or `None` when it raises.
- `Shaping`: the output records (`map<string, Json>`) and their field names.
- `Aligner`: `combine_category_data`, together with a reference description
  of a combined record (`AlignedUpTo`).
- `Pipeline`: one request end to end (`HandleRequest`, `Respond`), with the
  properties of the whole request.

The model follows the code as written. Five of its behaviours are easy to
miss, and a lemma exhibits each:

- Exactly four months gives the annual period 12, not 2. The condition
  `24 > n > 4` excludes 4 (`TwoCyclesFitIff`). The decomposition at line 66
  needs two full cycles, so a series of exactly four months makes it raise,
  and with it the whole request (`FourMonthSeriesFailsRequest`).
- An empty or too-short general series does not fail the request. The
  analysis returns early, the accumulator keeps its empty general lists, and
  when no category raises, the response is a success with no combined
  records (`GeneralSkippedGivesEmptyReport`).
- A library error in any category is not contained to that category. Nothing
  catches it per category, so the whole request fails (`LibraryErrorIff`).
- A skipped category shifts the positional lookup of category names. Every
  later category's records are then read under the field names of the
  category at its collected position. The request fails with a lookup error
  exactly when such a category shares a month name with the general series
  (`LookupFailureIff`).
- When no category is skipped ahead of one with a result, the combination is
  exactly as intended (`AlignedReport`). Every request that does succeed,
  skipped categories included, has the intended combined records
  (`CombinedRecords`), since a misread result that could add a field fails
  the request instead.

## Model

| member | source | states |
|---|---|---|
| Months.AddMonths | api.py:72 | adding a month offset to a (year, month) pair lands on the month index that many months later, with a month of year in 1..12 |
| Months.YearMonthRoundTrip | api.py:47 | the first-of-month (year, month) of a month index and the index determine each other |
| Months.LabelsEqualIff | api.py:78 | two months get the same `%B` name exactly when they lie a whole number of years apart |
| Months.Label | api.py:78 | every month's `%B` name is one of the twelve month names |
| Months.LabelOfMonth | api.py:78 | the first of the month-th month of any year is named with that month's name, January first |
| Months.LabelRepeatsAfterYear | api.py:78 | a month and the month a year later get the same name |
| SeriesBuilder.ScoresInHasRecord | api.py:47 | every month with a record contributes at least one score to that month's mean |
| SeriesBuilder.ScoresInSingle | api.py:47 | a single record contributes its score to its own month and nothing to any other |
| SeriesBuilder.ScoresInAppend | api.py:47 | a month's scores over two record lists are the first list's scores followed by the second's, so every score of the month is kept, in record order, and no other |
| SeriesBuilder.ScoresInIff | api.py:47 | a month contributes scores to its mean exactly when some record falls in that month |
| SeriesBuilder.EarliestRecord | api.py:50 | the range start is the month of some record and no record is earlier |
| SeriesBuilder.LatestRecord | api.py:50 | the range end is the month of some record and no record is later |
| SeriesBuilder.Bucketed | api.py:47-51 | one slot per month of the full range; a slot holds a value exactly when some record falls in its month, and the value is that month's mean |
| SeriesBuilder.BucketedBracketed | api.py:50-51 | the laid-out range starts and ends at months that have values, so interpolation never extrapolates |
| SeriesBuilder.PrevKnown | api.py:52 | the nearest valued month at or before a position, with only empty months in between |
| SeriesBuilder.NextKnown | api.py:52 | the nearest valued month at or after a position, with only empty months in between |
| SeriesBuilder.Interpolate | api.py:52 | interpolation gives one value per month and keeps every month that has a value |
| SeriesBuilder.FillGaps | api.py:52 | the one-pass gap filler keeps every known value and equals the reference interpolation |
| SeriesBuilder.Build | api.py:43-52 | no series exactly for an empty record list; otherwise the series starts at the earliest record month and spans every month up to the latest |
| SeriesBuilder.BuildKeepsMeans | api.py:47-52 | every record's month is in the series, and its value is the mean of that month's scores, untouched by interpolation |
| SeriesBuilder.BuildFillsGaps | api.py:50-52 | a month without records lies strictly inside the range and gets the interpolated value between its valued neighbours |
| SeriesBuilder.LerpBetween | api.py:52 | a step of linear interpolation stays between the two ends |
| SeriesBuilder.InterpolationBetweenNeighbours | api.py:52 | every interpolated value lies between the values of the nearest valued months on either side |
| SeriesBuilder.InterpolationOnLine | api.py:52 | when the known values lie on a straight line in position, interpolation reproduces the whole line |
| SeriesBuilder.GapsExample | api.py:47-52 | records in months 1, 3 and 5 with scores 1, 2 and 3 build the series 1, 1.5, 2, 2.5, 3 |
| SeriesBuilder.MeanBounds | api.py:47 | a monthly mean lies between the smallest and the largest of its scores |
| SeriesBuilder.BuildFlat | api.py:47-52 | records that all carry one score build a series flat at that score, filled months included |
| SeriesBuilder.InterpolateFlat | api.py:52 | when every known value is the same, interpolation fills every gap with that value |
| Forecaster.SeasonalPeriod | api.py:57-64 | strictly between 4 and 24 months the period is half the length rounded down; otherwise it is 12 |
| Forecaster.SeasonalPeriodExamples | api.py:61-64 | 4 months gives 12, 5 gives 2, 10 gives 5, 23 gives 11, and 24 and 100 give 12 |
| Forecaster.TwoCyclesFitIff | api.py:58-64 | past the guard the period is between 2 and 12, and two full cycles fit in the series except at exactly four months |
| Forecaster.ForecastWindow | api.py:71-73 | five consecutive months, from the second-to-last observed month to three months past the last |
| Forecaster.Analyze | api.py:39-73 | no records gives no forecast; fewer than four months gives none and reports the count; the library's error is reported exactly when the series passed the guard and the library raised on it with the chosen period; otherwise the built series is forecast with that period over the window |
| Forecaster.LongEnoughIsForecast | api.py:58-73 | a series of four or more months is never dropped quietly: it is forecast, starting one month before its last, or the library raised |
| Forecaster.FourMonthsRaises | api.py:58-66 | with a library that needs two full cycles, a series of exactly four months passes the guard, gets period 12 and raises |
| Forecaster.LongerSeriesFitTwoCycles | api.py:61-64 | past four months, two cycles of the chosen period always fit in the series |
| Shaping.KeyFamiliesDisjoint | api.py:83-84 | the date, observed, null and predicted field names never clash, and each family tells its categories apart |
| Shaping.RealData | api.py:78-83 | one record per month, in order, holding exactly the month's name and its score under the owner's observed field |
| Shaping.PredictData | api.py:79-84 | one record per window month, in order, holding exactly the month's name, a null observed field and the prediction |
| Shaping.RealDataReadsBack | api.py:78-83 | reading the records back gives the series' month names and values |
| Shaping.LongSeriesRepeatsLabels | api.py:78 | in a series longer than a year, points twelve months apart carry the same date name |
| Shaping.YearOfLabelsDistinct | api.py:78 | within twelve consecutive points the date names are distinct |
| Aligner.CategoriesDistinct | api.py:19 | the seven category names are pairwise different |
| Aligner.FirstIndex | api.py:100-106 | the position looked up is the first position that holds an equal result |
| Aligner.MatchingMembers | api.py:98-105 | the matching records are exactly the records whose date equals the month name |
| Aligner.AttachLastWins | api.py:98-109 | when every record carries the field, attaching one category's records sets the field from the last record with the month name, and leaves the entry unchanged when no record has that name |
| Aligner.CombineAligned | api.py:90-112 | for results that line up with the category list, combining succeeds with one record per general month name, in order, each holding its name and exactly the fields that the categories' records report |
| Aligner.CombinePlaced | api.py:90-112 | the same when each result either lines up with its category or has no record with any general month name: such results contribute nothing |
| Aligner.Combine | api.py:90-112 | a successful combination has one record per general month name, in order, and each is that name's record built without error |
| Aligner.AttachFailsOnMissingField | api.py:98-109 | a record with the month name that lacks the looked-up field makes attaching fail, whatever the other records hold |
| Aligner.AttachQuiet | api.py:98-109 | records none of which carries the month name leave the combined record unchanged |
| Aligner.AttachFromFails | api.py:97-109 | over pairwise different results, a result whose records lack the fields of the name at its position fails the record of any month name one of its records carries, whatever the results before it do |
| Aligner.AttachFromOk | api.py:97-109 | over pairwise different results, the record for a month name is built without error when every result is shaped for the name at its position or has no record with that month name |
| Aligner.AbsentCategoryHasNoFields | api.py:97-110 | a category without a result contributes no field to any combined record |
| Aligner.MisnamedResultFails | api.py:97-110 | over pairwise different results, a result whose records lack the fields of the name at its position makes the combination fail as soon as one of its records carries a general month name |
| Pipeline.CategoryOf | api.py:82-86 | a forecast category's records carry the date and the category's own fields, one per month and one per window month |
| Pipeline.GeneralPart | api.py:39-79 | a skipped general series leaves empty general lists; a library error fails; a forecast fills the general observed records with the shaped series and the predicted records with the shaped forecast window |
| Pipeline.CollectFrom | api.py:121-122 | collecting the category results fails only with a library error and yields at most one result per category |
| Pipeline.CollectRaisedIff | api.py:121-122 | collecting the category results fails exactly when some category's analysis raised |
| Pipeline.LibraryErrorIff | api.py:116-139 | the request fails with a library error exactly when the general series or some category raised |
| Pipeline.RequestLibraryErrorIff | api.py:114-125 | the same, stated over the fetched records of the general series and the categories |
| Pipeline.GeneralSkippedGivesEmptyReport | api.py:93-131 | a skipped general series yields a successful report with empty general records and no combined records |
| Pipeline.Respond | api.py:114-131 | a successful response has one combined record per general record; its general records are the shaped general series and forecast, or empty lists and no combined records when the general series was skipped |
| Pipeline.HandleRequest | api.py:114-131 | the same, stated over the fetched records: the general records are the built general series and its forecast, or empty when the analysis returned early |
| Pipeline.MatchingObserved | api.py:83-99 | a category's observed records match a month name exactly when its series has a month of that name |
| Pipeline.MatchingPredicted | api.py:84-105 | a category's predicted records match a month name exactly when its window has a month of that name |
| Pipeline.LeadingResults | api.py:82-86 | when skipped categories all come last, the collected results are those of the forecast categories, in category order |
| Pipeline.LeadingWellPlaced | api.py:100-106 | the collected results of the leading categories line up with the category list and are pairwise different |
| Pipeline.AlignedReport | api.py:90-125 | with no skipped category ahead of a forecast one and nothing raising, the request succeeds; the report has one record per general month, named as it; each category's observed field appears exactly when the category was forecast and its series has that month name, and its predicted field exactly when its window has it; nothing else appears |
| Pipeline.CombinedRecords | api.py:90-125 | for every successful request whose general series was forecast, skipped categories included: one combined record per general month, named as it; each category's observed field appears exactly when it was forecast and its series has that month name, and its predicted field exactly when its window has it; nothing else appears |
| Pipeline.ForecastPositions | api.py:121-122 | the positions of the forecast categories, in increasing order, with every forecast category among them |
| Pipeline.CollectPositions | api.py:82-86 | with nothing raising, the p-th collected result is the p-th forecast category's, shaped with that category's own name |
| Pipeline.InPlaceIff | api.py:100 | the p-th forecast category's result sits at position p, where the lookup reads its name, exactly when no category before it was skipped |
| Pipeline.CollectedDistinct | api.py:100 | with nothing raising, the collected results are pairwise different, so the lookup finds each at its own position |
| Pipeline.CategoryLacksOtherField | api.py:83-84 | a category's records hold neither the observed nor the predicted field of any other category |
| Pipeline.SkippedCategoryBreaksRequest | api.py:97-109 | a forecast category after a skipped one that shares a month name with the general series makes the request fail with a lookup error |
| Pipeline.NothingMisreadCombines | api.py:95-112 | when no forecast category after a skipped one shares a general month name, the request succeeds |
| Pipeline.LookupFailureIff | api.py:95-125 | with the general series forecast and nothing raising, the request fails exactly when a forecast category after a skipped one shares a general month name, and then with a lookup error |
| Pipeline.FourMonthSeriesFailsRequest | api.py:58-122 | with a library that needs two full cycles, a general or category series of exactly four months fails the whole request with a library error |

## Left out

- The HTTP endpoint and its JSON responses. `Flask`, `jsonify` and the
  200/417 status codes are not modelled. A `RequestError` stands for the
  417 response, which is the `except` branch at line 133.
- Fetching the records. The `requests.get` call, the authentication header
  and the `.env` variables are not modelled. Each series' records are inputs
  (`Record(month, score)`), already parsed from their ISO timestamps and
  truncated to the month.
- The numerical library. `seasonal_decompose` and `ExponentialSmoothing` are
  the `Library` parameter. Nothing about their numbers is modelled, only
  whether they raise and which months the prediction is read at. The
  decomposition result is unused in the code. That the decomposition needs
  two full cycles of the period is not built into `Library`; the lemmas that
  rely on it take it as the hypothesis `NeedsTwoCycles`.
- The cross-request state. The code keeps `data_dict` as a module global.
  After a request, its `categories` list holds the combined records, and the
  next request appends fresh results to them. The model uses a fresh
  accumulator per request and describes the first request after start-up.
- Console output (`print`), the locale of `%B` (English names assumed), and
  the key order of the JSON objects.
- Not-a-number values. Real arithmetic stands in for floating point, so
  there is no rounding, and no NaN can arise from an empty month, which the
  model never averages.
- `Forecaster.Analyze`: the records' `score` field is taken as a number. A
  malformed upstream payload, such as a missing `data` key or a missing
  column, raises in the code and is not modelled.
- `Aligner.AttachLastWins`: it is stated only for records that carry the
  looked-up field. The missing-field path is stated separately, by
  `Aligner.AttachFailsOnMissingField`, and for a whole request by
  `Pipeline.LookupFailureIff`.

=== FILE: aligner.dfy ===
/** Combining the per-category results onto the general series' month names.
    Each combined record starts from a month name of the general series and
    receives, category by category, the observed and predicted scores of every
    point carrying the same name; a later point overwrites an earlier one.  The
    category name used for the field is looked up by the result's position in
    the list of results, taken as the first position holding an equal result. */
module Aligner {
  import opened Wrappers
  import opened Shaping

  /** The categories analysed, in order. */
  const Categories: seq<string> :=
    ["Service", "Driver", "Traffic Sign", "Navigation", "Stops", "Travel Time", "Behavior"]

  /** The shaped records of one category's analysis. */
  datatype CategoryData = CategoryData(realData: seq<Entry>, predictData: seq<Entry>)

  /** A missing field of a record, or a position past the category list. */
  datatype LookupError = KeyError(key: string) | IndexError(index: nat)

  predicate Distinct<T(==)>(s: seq<T>) {
    forall i, j :: 0 <= i < j < |s| ==> s[i] != s[j]
  }

  lemma CategoriesDistinct()
    ensures Distinct(Categories)
  {
  }

  /** The first position holding `x`. */
  function FirstIndex<T(==)>(s: seq<T>, x: T): (i: nat)
    requires x in s
    ensures i < |s| && s[i] == x
    ensures forall j :: 0 <= j < i ==> s[j] != x
  {
    if s[0] == x then 0 else 1 + FirstIndex(s[1..], x)
  }

  /** Whether a record is dated with month name `date`; a record without a
      date field is a lookup error. */
  function DatedAt(p: Entry, date: string): Result<bool, LookupError> {
    if DateKey !in p then Err(KeyError(DateKey)) else Ok(p[DateKey] == JStr(date))
  }

  /** Copies field `prefix + categories[idx]` of every record dated `date`
      into `entry`, in order. */
  function Attach(entry: Entry, points: seq<Entry>, date: string, prefix: string,
                  idx: nat, categories: seq<string>): Result<Entry, LookupError>
    decreases |points|
  {
    if points == [] then Ok(entry)
    else
      var p := points[0];
      var matches :- DatedAt(p, date);
      if !matches then Attach(entry, points[1..], date, prefix, idx, categories)
      else if idx >= |categories| then Err(IndexError(idx))
      else
        var key := prefix + categories[idx];
        if key !in p then Err(KeyError(key))
        else Attach(entry[key := p[key]], points[1..], date, prefix, idx, categories)
  }

  /** Adds the fields of categories `k..` to the record for `date`. */
  function AttachFrom(entry: Entry, cats: seq<CategoryData>, k: nat, date: string,
                      categories: seq<string>): Result<Entry, LookupError>
    decreases |cats| - k
  {
    if k >= |cats| then Ok(entry)
    else
      var idx := FirstIndex(cats, cats[k]);
      var withReal :- Attach(entry, cats[k].realData, date, "realScore", idx, categories);
      var withBoth :- Attach(withReal, cats[k].predictData, date, "HWScore", idx, categories);
      AttachFrom(withBoth, cats, k + 1, date, categories)
  }

  /** The combined record of one month name: the name, then every category's
      fields. */
  function CombinedEntry(date: string, cats: seq<CategoryData>, categories: seq<string>)
    : Result<Entry, LookupError>
  {
    AttachFrom(map[DateKey := JStr(date)], cats, 0, date, categories)
  }

  /** One combined record per general month name, in the same order. */
  function Combine(dates: seq<string>, cats: seq<CategoryData>, categories: seq<string>)
    : (r: Result<seq<Entry>, LookupError>)
    ensures r.Ok? ==> |r.value| == |dates|
    ensures r.Ok? ==> forall i :: 0 <= i < |dates| ==>
              CombinedEntry(dates[i], cats, categories).Ok?
              && r.value[i] == CombinedEntry(dates[i], cats, categories).value
  {
    if dates == [] then Ok([])
    else
      var first :- CombinedEntry(dates[0], cats, categories);
      var rest :- Combine(dates[1..], cats, categories);
      Ok([first] + rest)
  }

  // ----- Reference description of a combined record -----

  /** The records dated `date`, in order. */
  function Matching(points: seq<Entry>, date: string): seq<Entry> {
    if points == [] then []
    else
      var p := points[0];
      (if DateKey in p && p[DateKey] == JStr(date) then [p] else []) + Matching(points[1..], date)
  }

  /** The matching records are exactly the records dated `date`. */
  lemma {:induction false} MatchingMembers(points: seq<Entry>, date: string)
    ensures forall q :: q in Matching(points, date) ==> q in points && DateKey in q && q[DateKey] == JStr(date)
    ensures forall q :: q in points && DateKey in q && q[DateKey] == JStr(date) ==> q in Matching(points, date)
  {
    if points != [] {
      MatchingMembers(points[1..], date);
      assert forall q :: q in points <==> q == points[0] || q in points[1..];
    }
  }

  /** `e` with field `key` set from the last record dated `date`, if any. */
  function WithLast(e: Entry, key: string, points: seq<Entry>, date: string): Entry {
    var ms := Matching(points, date);
    if ms == [] || key !in ms[|ms| - 1] then e else e[key := ms[|ms| - 1][key]]
  }

  /** Whether field `key` of `e` reports the last record of `points` dated
      `date`, and is absent when there is none. */
  predicate Reports(e: Entry, key: string, points: seq<Entry>, date: string) {
    var ms := Matching(points, date);
    if ms == [] then key !in e
    else key in e && key in ms[|ms| - 1] && e[key] == ms[|ms| - 1][key]
  }

  /** Every record carries a date and the given field. */
  predicate Carries(points: seq<Entry>, key: string) {
    forall p :: p in points ==> DateKey in p && key in p
  }

  /** The shape of a category's records produced for category `name`. */
  predicate ShapedFor(cd: CategoryData, name: string) {
    Carries(cd.realData, RealKey(name)) && Carries(cd.predictData, HwKey(name))
  }

  /** The fields of the first `n` categories. */
  function FieldKeys(categories: seq<string>, n: nat): set<string>
    requires n <= |categories|
  {
    if n == 0 then {}
    else FieldKeys(categories, n - 1) + {RealKey(categories[n - 1]), HwKey(categories[n - 1])}
  }

  /** The fields of more categories include those of fewer. */
  lemma {:induction false} FieldKeysGrow(categories: seq<string>, n: nat, m: nat)
    requires n <= m <= |categories|
    ensures FieldKeys(categories, n) <= FieldKeys(categories, m)
    decreases m - n
  {
    if n < m {
      FieldKeysGrow(categories, n, m - 1);
    }
  }

  /** The combined record for `date` after the first `n` categories: its date,
      for each of those categories the fields its records report, and nothing
      else. */
  predicate AlignedUpTo(e: Entry, date: string, cats: seq<CategoryData>,
                        categories: seq<string>, n: nat)
    requires n <= |cats| <= |categories|
  {
    && DateKey in e && e[DateKey] == JStr(date)
    && e.Keys <= {DateKey} + FieldKeys(categories, n)
    && (forall k :: 0 <= k < n ==>
          Reports(e, RealKey(categories[k]), cats[k].realData, date)
          && Reports(e, HwKey(categories[k]), cats[k].predictData, date))
  }

  /** No more results than names, and no two names or two results equal, so
      the lookup finds each result at its own position. */
  predicate Placed(cats: seq<CategoryData>, categories: seq<string>) {
    && |cats| <= |categories|
    && Distinct(categories)
    && Distinct(cats)
  }

  /** The result data line up with the category list: each is shaped for the
      category at its position, and no two are equal. */
  predicate WellPlaced(cats: seq<CategoryData>, categories: seq<string>) {
    && Placed(cats, categories)
    && forall k :: 0 <= k < |cats| ==> ShapedFor(cats[k], categories[k])
  }

  /** For the record of month name `date`, every result is either shaped for
      the category at its position or has no record with that name. */
  predicate PlacedAt(cats: seq<CategoryData>, categories: seq<string>, date: string) {
    && Placed(cats, categories)
    && forall k :: 0 <= k < |cats| ==> ShapedFor(cats[k], categories[k]) || Quiet(cats[k], date)
  }

  // ----- Proofs -----

  /** Setting from the last match of a list, in terms of its first record:
      a first record dated `date` is set first and then overwritten by any
      later match; any other first record is passed over. */
  lemma WithLastCons(entry: Entry, key: string, points: seq<Entry>, date: string)
    requires points != [] && Carries(points, key)
    ensures var p := points[0];
      WithLast(entry, key, points, date)
        == if p[DateKey] == JStr(date) then WithLast(entry[key := p[key]], key, points[1..], date)
           else WithLast(entry, key, points[1..], date)
  {
    assert points[0] in points;
    if points[0][DateKey] == JStr(date) {
      WithLastDatedHead(entry, key, points, date);
    } else {
      assert Matching(points, date) == Matching(points[1..], date);
    }
  }

  lemma WithLastDatedHead(entry: Entry, key: string, points: seq<Entry>, date: string)
    requires points != [] && Carries(points, key) && points[0][DateKey] == JStr(date)
    ensures WithLast(entry, key, points, date) == WithLast(entry[key := points[0][key]], key, points[1..], date)
  {
    var p, tail := points[0], points[1..];
    assert p in points;
    var rest := Matching(tail, date);
    var ms := Matching(points, date);
    assert ms == [p] + rest;
    if rest != [] {
      MatchingMembers(tail, date);
      var last := rest[|rest| - 1];
      assert last in rest && last in points;
      assert ms[|ms| - 1] == last;
      assert entry[key := p[key]][key := last[key]] == entry[key := last[key]];
    }
  }

  /** Attaching one category's records sets the field to the last matching
      record's value when a record matches, and changes nothing otherwise. */
  lemma {:induction false} AttachLastWins(entry: Entry, points: seq<Entry>, date: string,
                                         prefix: string, idx: nat, categories: seq<string>)
    requires idx < |categories| && Carries(points, prefix + categories[idx])
    ensures Attach(entry, points, date, prefix, idx, categories)
              == Ok(WithLast(entry, prefix + categories[idx], points, date))
    decreases |points|
  {
    if points != [] {
      var key := prefix + categories[idx];
      var p, tail := points[0], points[1..];
      assert p in points;
      assert Carries(tail, key) by {
        forall q | q in tail ensures DateKey in q && key in q {
          assert q in points;
        }
      }
      WithLastCons(entry, key, points, date);
      if p[DateKey] == JStr(date) {
        AttachLastWins(entry[key := p[key]], tail, date, prefix, idx, categories);
      } else {
        AttachLastWins(entry, tail, date, prefix, idx, categories);
      }
    }
  }

  /** Setting from the last match reports it, adds no other field and keeps
      every other field. */
  lemma WithLastFacts(e: Entry, key: string, points: seq<Entry>, date: string)
    requires Carries(points, key) && key !in e
    ensures Reports(WithLast(e, key, points, date), key, points, date)
    ensures WithLast(e, key, points, date).Keys <= e.Keys + {key}
    ensures forall other :: other != key ==>
              (other in WithLast(e, key, points, date) <==> other in e)
              && (other in e ==> WithLast(e, key, points, date)[other] == e[other])
  {
    var ms := Matching(points, date);
    if ms != [] {
      MatchingMembers(points, date);
      assert ms[|ms| - 1] in ms;
    }
  }

  /** A later category's fields are not among the earlier categories' fields,
      nor the date. */
  lemma {:induction false} FreshFields(categories: seq<string>, n: nat, m: nat)
    requires Distinct(categories) && n <= m < |categories|
    ensures RealKey(categories[m]) !in {DateKey} + FieldKeys(categories, n)
    ensures HwKey(categories[m]) !in {DateKey} + FieldKeys(categories, n)
  {
    KeyFamiliesDisjoint(categories[m], categories[m]);
    if n > 0 {
      FreshFields(categories, n - 1, m);
      KeyFamiliesDisjoint(categories[m], categories[n - 1]);
      KeyFamiliesDisjoint(categories[n - 1], categories[m]);
    }
  }

  /** A field reports the same in two records that agree on it. */
  lemma ReportsAgree(e: Entry, e': Entry, key: string, points: seq<Entry>, date: string)
    requires (key in e <==> key in e') && (key in e ==> e[key] == e'[key])
    requires Reports(e, key, points, date)
    ensures Reports(e', key, points, date)
  {
  }

  /** A record that agrees with an aligned one outside category `k`'s two
      fields, and reports those two, is aligned one category further. */
  lemma AlignedExtend(entry: Entry, e': Entry, date: string, cats: seq<CategoryData>,
                      categories: seq<string>, k: nat)
    requires Placed(cats, categories) && k < |cats|
    requires AlignedUpTo(entry, date, cats, categories, k)
    requires var rk, hk := RealKey(categories[k]), HwKey(categories[k]);
      && e'.Keys <= entry.Keys + {rk, hk}
      && (forall other :: other != rk && other != hk ==>
            (other in e' <==> other in entry) && (other in entry ==> e'[other] == entry[other]))
      && Reports(e', rk, cats[k].realData, date)
      && Reports(e', hk, cats[k].predictData, date)
    ensures AlignedUpTo(e', date, cats, categories, k + 1)
  {
    var c := categories[k];
    var rk, hk := RealKey(c), HwKey(c);
    KeyFamiliesDisjoint(c, c);
    assert DateKey in e' && e'[DateKey] == JStr(date);
    ExtendKeys(entry, e', categories, k);
    forall j | 0 <= j < k
      ensures Reports(e', RealKey(categories[j]), cats[j].realData, date)
      ensures Reports(e', HwKey(categories[j]), cats[j].predictData, date)
    {
      EarlierReportsKept(entry, e', date, cats, categories, k, j);
    }
    AlignedFromParts(e', date, cats, categories, k);
  }

  /** A record aligned on the first `k` categories' fields, holding only the
      date and the first `k + 1` categories' fields, and reporting category
      `k`'s two fields, is aligned for the first `k + 1`. */
  lemma AlignedFromParts(e: Entry, date: string, cats: seq<CategoryData>, categories: seq<string>, k: nat)
    requires k < |cats| <= |categories|
    requires DateKey in e && e[DateKey] == JStr(date)
    requires e.Keys <= {DateKey} + FieldKeys(categories, k + 1)
    requires forall j :: 0 <= j < k ==> Reports(e, RealKey(categories[j]), cats[j].realData, date)
    requires forall j :: 0 <= j < k ==> Reports(e, HwKey(categories[j]), cats[j].predictData, date)
    requires Reports(e, RealKey(categories[k]), cats[k].realData, date)
    requires Reports(e, HwKey(categories[k]), cats[k].predictData, date)
    ensures AlignedUpTo(e, date, cats, categories, k + 1)
  {
  }

  /** Category `j`'s fields, for `j` before `k`, report the same in two
      records that agree outside category `k`'s fields. */
  lemma EarlierReportsKept(entry: Entry, e': Entry, date: string, cats: seq<CategoryData>,
                           categories: seq<string>, k: nat, j: nat)
    requires Placed(cats, categories) && j < k < |cats|
    requires var rk, hk := RealKey(categories[k]), HwKey(categories[k]);
      forall other :: other != rk && other != hk ==>
        (other in e' <==> other in entry) && (other in entry ==> e'[other] == entry[other])
    requires Reports(entry, RealKey(categories[j]), cats[j].realData, date)
    requires Reports(entry, HwKey(categories[j]), cats[j].predictData, date)
    ensures Reports(e', RealKey(categories[j]), cats[j].realData, date)
    ensures Reports(e', HwKey(categories[j]), cats[j].predictData, date)
  {
    var c := categories[k];
    assert categories[j] != c;
    KeyFamiliesDisjoint(categories[j], c);
    KeyFamiliesDisjoint(c, categories[j]);
    ReportsAgree(entry, e', RealKey(categories[j]), cats[j].realData, date);
    ReportsAgree(entry, e', HwKey(categories[j]), cats[j].predictData, date);
  }

  /** Adding category `k`'s two fields to a record that holds only the date
      and the fields of the first `k` categories keeps it within the fields of
      the first `k + 1`. */
  lemma ExtendKeys(entry: Entry, e': Entry, categories: seq<string>, k: nat)
    requires k < |categories| && entry.Keys <= {DateKey} + FieldKeys(categories, k)
    requires e'.Keys <= entry.Keys + {RealKey(categories[k]), HwKey(categories[k])}
    ensures e'.Keys <= {DateKey} + FieldKeys(categories, k + 1)
  {
    assert FieldKeys(categories, k + 1) == FieldKeys(categories, k) + {RealKey(categories[k]), HwKey(categories[k])};
  }

  /** Adding category `k`'s fields to a record aligned for the first `k`
      categories aligns it for the first `k + 1`. */
  lemma AlignedStep(entry: Entry, date: string, cats: seq<CategoryData>, categories: seq<string>, k: nat)
    requires Placed(cats, categories) && k < |cats| && ShapedFor(cats[k], categories[k])
    requires AlignedUpTo(entry, date, cats, categories, k)
    ensures var rk, hk := RealKey(categories[k]), HwKey(categories[k]);
      AlignedUpTo(WithLast(WithLast(entry, rk, cats[k].realData, date), hk, cats[k].predictData, date),
                  date, cats, categories, k + 1)
  {
    var c := categories[k];
    var rk, hk := RealKey(c), HwKey(c);
    KeyFamiliesDisjoint(c, c);
    FreshFields(categories, k, k);
    assert ShapedFor(cats[k], c);
    var withReal := WithLast(entry, rk, cats[k].realData, date);
    WithLastFacts(entry, rk, cats[k].realData, date);
    var withBoth := WithLast(withReal, hk, cats[k].predictData, date);
    WithLastFacts(withReal, hk, cats[k].predictData, date);
    ReportsAgree(withReal, withBoth, rk, cats[k].realData, date);
    AlignedExtend(entry, withBoth, date, cats, categories, k);
  }

  /** Over well-placed results, category `k` looks up its own name and sets
      its two fields from its last matching records. */
  lemma AttachFromStep(entry: Entry, cats: seq<CategoryData>, k: nat,
                       date: string, categories: seq<string>)
    requires Placed(cats, categories) && k < |cats| && ShapedFor(cats[k], categories[k])
    ensures var rk, hk := RealKey(categories[k]), HwKey(categories[k]);
      AttachFrom(entry, cats, k, date, categories)
        == AttachFrom(WithLast(WithLast(entry, rk, cats[k].realData, date), hk, cats[k].predictData, date),
                      cats, k + 1, date, categories)
  {
    var idx := FirstIndex(cats, cats[k]);
    assert idx == k;
    var c := categories[k];
    var rk, hk := RealKey(c), HwKey(c);
    assert ShapedFor(cats[k], c);
    assert "realScore" + categories[idx] == rk && "HWScore" + categories[idx] == hk;
    AttachLastWins(entry, cats[k].realData, date, "realScore", idx, categories);
    var withReal := WithLast(entry, rk, cats[k].realData, date);
    AttachLastWins(withReal, cats[k].predictData, date, "HWScore", idx, categories);
  }

  /** Over well-placed results, the categories from `k` on each fill exactly
      their own fields. */
  lemma {:induction false} AttachFromAligned(entry: Entry, cats: seq<CategoryData>, k: nat,
                                            date: string, categories: seq<string>)
    requires PlacedAt(cats, categories, date) && k <= |cats|
    requires AlignedUpTo(entry, date, cats, categories, k)
    ensures AttachFrom(entry, cats, k, date, categories).Ok?
    ensures AlignedUpTo(AttachFrom(entry, cats, k, date, categories).value, date, cats, categories, |cats|)
    decreases |cats| - k
  {
    if k < |cats| {
      if ShapedFor(cats[k], categories[k]) {
        var rk, hk := RealKey(categories[k]), HwKey(categories[k]);
        var withBoth := WithLast(WithLast(entry, rk, cats[k].realData, date), hk, cats[k].predictData, date);
        AttachFromStep(entry, cats, k, date, categories);
        AlignedStep(entry, date, cats, categories, k);
        AttachFromAligned(withBoth, cats, k + 1, date, categories);
      } else {
        QuietStep(entry, cats, k, date, categories);
        QuietAligned(entry, date, cats, categories, k);
        AttachFromAligned(entry, cats, k + 1, date, categories);
      }
    }
  }

  /** A result with no record for the month name is passed over. */
  lemma QuietStep(entry: Entry, cats: seq<CategoryData>, k: nat, date: string, categories: seq<string>)
    requires Placed(cats, categories) && k < |cats| && Quiet(cats[k], date)
    ensures AttachFrom(entry, cats, k, date, categories) == AttachFrom(entry, cats, k + 1, date, categories)
  {
    var idx := FirstIndex(cats, cats[k]);
    assert idx == k;
    AttachQuiet(entry, cats[k].realData, date, "realScore", idx, categories);
    AttachQuiet(entry, cats[k].predictData, date, "HWScore", idx, categories);
  }

  /** Passing over a result with no record for the month name keeps the
      record aligned one category further: that category reports nothing. */
  lemma QuietAligned(entry: Entry, date: string, cats: seq<CategoryData>, categories: seq<string>, k: nat)
    requires Placed(cats, categories) && k < |cats| && Quiet(cats[k], date)
    requires AlignedUpTo(entry, date, cats, categories, k)
    ensures AlignedUpTo(entry, date, cats, categories, k + 1)
  {
    FreshFields(categories, k, k);
    FieldKeysGrow(categories, k, k + 1);
  }

  /** When every month name's record can be built, the combination is those
      records in month-name order. */
  lemma {:induction false} CombinePointwise(dates: seq<string>, cats: seq<CategoryData>, categories: seq<string>)
    requires forall i :: 0 <= i < |dates| ==> CombinedEntry(dates[i], cats, categories).Ok?
    ensures Combine(dates, cats, categories).Ok?
    ensures |Combine(dates, cats, categories).value| == |dates|
    ensures forall i :: 0 <= i < |dates| ==>
              Combine(dates, cats, categories).value[i] == CombinedEntry(dates[i], cats, categories).value
  {
    if dates != [] {
      assert CombinedEntry(dates[0], cats, categories).Ok?;
      forall i | 0 <= i < |dates[1..]|
        ensures CombinedEntry(dates[1..][i], cats, categories).Ok?
      {
        assert dates[1..][i] == dates[i + 1];
      }
      CombinePointwise(dates[1..], cats, categories);
      var rest := Combine(dates[1..], cats, categories).value;
      var r := Combine(dates, cats, categories).value;
      assert r == [CombinedEntry(dates[0], cats, categories).value] + rest;
      forall i | 0 < i < |dates|
        ensures r[i] == CombinedEntry(dates[i], cats, categories).value
      {
        assert r[i] == rest[i - 1];
        assert dates[i] == dates[1..][i - 1];
      }
    }
  }

  /** For well-placed results the combination never fails, keeps the general
      month names in order (repeats included), and each record holds exactly
      the fields of the categories that have a point with that month name, each
      taken from the last such point. */
  lemma CombineAligned(dates: seq<string>, cats: seq<CategoryData>, categories: seq<string>)
    requires WellPlaced(cats, categories)
    ensures Combine(dates, cats, categories).Ok?
    ensures |Combine(dates, cats, categories).value| == |dates|
    ensures forall i :: 0 <= i < |dates| ==>
              AlignedUpTo(Combine(dates, cats, categories).value[i], dates[i], cats, categories, |cats|)
  {
    CombinePlaced(dates, cats, categories);
  }

  /** The same holds when, for each general month name, every result is shaped
      for its position or has no record with that name: the results that are
      not are passed over and contribute no field. */
  lemma CombinePlaced(dates: seq<string>, cats: seq<CategoryData>, categories: seq<string>)
    requires Placed(cats, categories)
    requires forall i, k :: 0 <= i < |dates| && 0 <= k < |cats| ==>
               ShapedFor(cats[k], categories[k]) || Quiet(cats[k], dates[i])
    ensures Combine(dates, cats, categories).Ok?
    ensures |Combine(dates, cats, categories).value| == |dates|
    ensures forall i :: 0 <= i < |dates| ==>
              AlignedUpTo(Combine(dates, cats, categories).value[i], dates[i], cats, categories, |cats|)
  {
    forall i | 0 <= i < |dates|
      ensures CombinedEntry(dates[i], cats, categories).Ok?
      ensures AlignedUpTo(CombinedEntry(dates[i], cats, categories).value, dates[i], cats, categories, |cats|)
    {
      assert PlacedAt(cats, categories, dates[i]);
      AttachFromAligned(map[DateKey := JStr(dates[i])], cats, 0, dates[i], categories);
    }
    CombinePointwise(dates, cats, categories);
  }

  /** A category with no result contributes no field to any combined record. */
  lemma AbsentCategoryHasNoFields(e: Entry, date: string, cats: seq<CategoryData>,
                                  categories: seq<string>, k: nat)
    requires Placed(cats, categories) && |cats| <= k < |categories|
    requires AlignedUpTo(e, date, cats, categories, |cats|)
    ensures RealKey(categories[k]) !in e && HwKey(categories[k]) !in e
  {
    FreshFields(categories, |cats|, k);
  }

  /** A result with no record for the month name contributes no field. */
  lemma QuietHasNoFields(e: Entry, date: string, cats: seq<CategoryData>,
                         categories: seq<string>, k: nat)
    requires k < |cats| <= |categories| && Quiet(cats[k], date)
    requires AlignedUpTo(e, date, cats, categories, |cats|)
    ensures RealKey(categories[k]) !in e && HwKey(categories[k]) !in e
  {
  }

  /** Every record carries a date and lacks field `key`. */
  predicate Lacks(points: seq<Entry>, key: string) {
    forall q :: q in points ==> DateKey in q && key !in q
  }

  /** Every record carries a date. */
  predicate Dated(points: seq<Entry>) {
    forall q :: q in points ==> DateKey in q
  }

  /** No record of a category's result carries month name `date`. */
  predicate Quiet(cd: CategoryData, date: string) {
    && Dated(cd.realData) && Dated(cd.predictData)
    && Matching(cd.realData, date) == [] && Matching(cd.predictData, date) == []
  }

  /** Attaching fails as soon as a record with the month name lacks the
      field, whatever the other records hold. */
  lemma {:induction false} AttachFailsOnMissingField(entry: Entry, points: seq<Entry>, date: string,
                                                    prefix: string, idx: nat, categories: seq<string>,
                                                    p: Entry)
    requires idx < |categories|
    requires p in points && DateKey in p && p[DateKey] == JStr(date) && prefix + categories[idx] !in p
    ensures Attach(entry, points, date, prefix, idx, categories).Err?
    decreases |points|
  {
    var q, key := points[0], prefix + categories[idx];
    if q != p && DateKey in q {
      assert p in points[1..];
      if q[DateKey] != JStr(date) {
        AttachFailsOnMissingField(entry, points[1..], date, prefix, idx, categories, p);
      } else if key in q {
        AttachFailsOnMissingField(entry[key := q[key]], points[1..], date, prefix, idx, categories, p);
      }
    }
  }

  /** Attaching records none of which carries the month name changes nothing. */
  lemma {:induction false} AttachQuiet(entry: Entry, points: seq<Entry>, date: string,
                                      prefix: string, idx: nat, categories: seq<string>)
    requires Dated(points) && Matching(points, date) == []
    ensures Attach(entry, points, date, prefix, idx, categories) == Ok(entry)
    decreases |points|
  {
    if points != [] {
      var p, tail := points[0], points[1..];
      assert p in points;
      assert Matching(points, date)
          == (if DateKey in p && p[DateKey] == JStr(date) then [p] else []) + Matching(tail, date);
      assert Dated(tail) by {
        forall q | q in tail ensures DateKey in q {
          assert q in points;
        }
      }
      AttachQuiet(entry, tail, date, prefix, idx, categories);
    }
  }

  /** Over pairwise different results, result `k` is looked up under the name
      at its own position; when its records lack that name's fields, any
      record carrying the month name makes the record for that name fail,
      whatever the results before it do. */
  lemma {:induction false} AttachFromFails(entry: Entry, cats: seq<CategoryData>, m: nat, date: string,
                                          categories: seq<string>, k: nat, p: Entry)
    requires Distinct(cats) && m <= k < |cats| <= |categories|
    requires Lacks(cats[k].realData, RealKey(categories[k]))
    requires Lacks(cats[k].predictData, HwKey(categories[k]))
    requires p in cats[k].realData || p in cats[k].predictData
    requires p[DateKey] == JStr(date)
    ensures AttachFrom(entry, cats, m, date, categories).Err?
    decreases k - m
  {
    var idx := FirstIndex(cats, cats[m]);
    var realPart := Attach(entry, cats[m].realData, date, "realScore", idx, categories);
    if m == k {
      assert idx == k;
      assert "realScore" + categories[k] == RealKey(categories[k]);
      assert "HWScore" + categories[k] == HwKey(categories[k]);
      if p in cats[k].realData {
        AttachFailsOnMissingField(entry, cats[k].realData, date, "realScore", k, categories, p);
      } else if realPart.Ok? {
        AttachFailsOnMissingField(realPart.value, cats[k].predictData, date, "HWScore", k, categories, p);
      }
    } else if realPart.Ok? {
      var both := Attach(realPart.value, cats[m].predictData, date, "HWScore", idx, categories);
      if both.Ok? {
        assert AttachFrom(entry, cats, m, date, categories) == AttachFrom(both.value, cats, m + 1, date, categories);
        AttachFromFails(both.value, cats, m + 1, date, categories, k, p);
      }
    }
  }

  /** Over pairwise different results, the record for a month name is built
      without error when every result is either shaped for the name at its
      position or has no record carrying the month name. */
  lemma {:induction false} AttachFromOk(entry: Entry, cats: seq<CategoryData>, m: nat, date: string,
                                       categories: seq<string>)
    requires Distinct(cats) && m <= |cats| <= |categories|
    requires forall j :: m <= j < |cats| ==> ShapedFor(cats[j], categories[j]) || Quiet(cats[j], date)
    ensures AttachFrom(entry, cats, m, date, categories).Ok?
    decreases |cats| - m
  {
    if m < |cats| {
      var idx := FirstIndex(cats, cats[m]);
      assert idx == m;
      var c := categories[m];
      assert "realScore" + c == RealKey(c) && "HWScore" + c == HwKey(c);
      var next: Entry;
      if ShapedFor(cats[m], c) {
        AttachLastWins(entry, cats[m].realData, date, "realScore", m, categories);
        var withReal := WithLast(entry, RealKey(c), cats[m].realData, date);
        AttachLastWins(withReal, cats[m].predictData, date, "HWScore", m, categories);
        next := WithLast(withReal, HwKey(c), cats[m].predictData, date);
      } else {
        AttachQuiet(entry, cats[m].realData, date, "realScore", m, categories);
        AttachQuiet(entry, cats[m].predictData, date, "HWScore", m, categories);
        next := entry;
      }
      assert AttachFrom(entry, cats, m, date, categories) == AttachFrom(next, cats, m + 1, date, categories);
      AttachFromOk(next, cats, m + 1, date, categories);
    }
  }

  /** Over pairwise different results, a result whose records lack the fields
      of the name at its position makes the whole combination fail as soon as
      one of its records carries a general month name. */
  lemma MisnamedResultFails(dates: seq<string>, cats: seq<CategoryData>, categories: seq<string>,
                            k: nat, p: Entry, i: nat)
    requires Distinct(cats) && k < |cats| <= |categories|
    requires Lacks(cats[k].realData, RealKey(categories[k]))
    requires Lacks(cats[k].predictData, HwKey(categories[k]))
    requires p in cats[k].realData || p in cats[k].predictData
    requires i < |dates| && p[DateKey] == JStr(dates[i])
    ensures Combine(dates, cats, categories).Err?
  {
    AttachFromFails(map[DateKey := JStr(dates[i])], cats, 0, dates[i], categories, k, p);
  }
}

=== FILE: forecast.dfy ===
/** The per-series forecasting step: the history guard, the choice of seasonal
    period from the number of months, and the window of months the fitted
    model is asked to predict.  Decomposition, fitting and prediction belong to
    a numerical library and enter as the `Library` parameter. */
module Forecaster {
  import opened Wrappers
  import opened Months
  import opened SeriesBuilder

  /** Fewer months than this and the series is not forecast. */
  const MinObservations: nat := 4

  /** The seasonal period used outside the adaptive range. */
  const AnnualPeriod: nat := 12

  /** How many months past the last observed month are predicted. */
  const HorizonMonths: nat := 3

  /** Decomposition plus a trend-and-seasonal exponential-smoothing fit of a
      series with a given seasonal period: the fitted model's prediction for
      any month, or no model when the library raises an error. */
  type Library = (Series, nat) -> Option<Month -> real>

  /** A library whose decomposition raises unless the series holds two full
      seasonal cycles, as the additive decomposition does. */
  ghost predicate NeedsTwoCycles(lib: Library) {
    forall s: Series, p: nat :: |s.values| < 2 * p ==> lib(s, p).None?
  }

  /** The seasonal period for a series of `n` months: half the length, rounded
      down, strictly between 4 and 24 months, and a year otherwise (4 months
      included). */
  function SeasonalPeriod(n: nat): (p: nat)
    ensures 4 < n < 24 ==> 2 * p <= n <= 2 * p + 1
    ensures !(4 < n < 24) ==> p == AnnualPeriod
  {
    if 24 > n > 4 then n / 2 else AnnualPeriod
  }

  lemma SeasonalPeriodExamples()
    ensures SeasonalPeriod(4) == 12
    ensures SeasonalPeriod(5) == 2
    ensures SeasonalPeriod(10) == 5
    ensures SeasonalPeriod(23) == 11
    ensures SeasonalPeriod(24) == 12
    ensures SeasonalPeriod(100) == 12
  {
  }

  /** For every series that passes the history guard, two whole seasonal
      cycles fit in the series except at exactly four months, where the annual
      period is chosen although only four months exist. */
  lemma TwoCyclesFitIff(n: nat)
    requires n >= MinObservations
    ensures 2 <= SeasonalPeriod(n) <= AnnualPeriod
    ensures 2 * SeasonalPeriod(n) <= n <==> n != 4
  {
  }

  /** The months to predict: from the series' second-to-last month through the
      month three months after its last. */
  function ForecastWindow(s: Series): (w: seq<Month>)
    requires |s.values| >= 2
    ensures |w| == 2 + HorizonMonths
    ensures w[0] == MonthAt(s, |s.values| - 2)
    ensures w[1] == LastMonth(s)
    ensures w[|w| - 1] == LastMonth(s) + HorizonMonths
    ensures forall i :: 0 < i < |w| ==> w[i] == w[i - 1] + 1
  {
    var first := MonthAt(s, |s.values| - 2);
    var last := LastMonth(s) + HorizonMonths;
    seq(last - first + 1, i => first + i)
  }

  /** A forecast series: the history, the period used, and the predictions
      over the window. */
  datatype Forecast = Forecast(series: Series, period: nat, window: seq<Month>, predicted: seq<real>)

  /** The shape every produced forecast has: a history that passed the guard
      and one prediction per window month. */
  predicate WellFormed(f: Forecast) {
    |f.series.values| >= MinObservations && |f.window| == |f.predicted| == 2 + HorizonMonths
  }

  /** Why a series produced no forecast.  The first two end the analysis of
      that series quietly; a library error propagates to the caller. */
  datatype Failure = NoRecords | TooFewMonths(count: nat) | LibraryRaised

  /** Builds the monthly series of a list of records and forecasts it. */
  function Analyze(records: seq<Record>, lib: Library): (r: Result<Forecast, Failure>)
    ensures records == [] <==> r == Err(NoRecords)
    ensures r.Err? && r.error.TooFewMonths? <==>
              records != [] && Latest(records) - Earliest(records) + 1 < MinObservations
    ensures r.Err? && r.error.TooFewMonths? ==>
              r.error.count == Latest(records) - Earliest(records) + 1
    ensures r == Err(LibraryRaised) <==>
              && records != []
              && Latest(records) - Earliest(records) + 1 >= MinObservations
              && lib(Build(records).value, SeasonalPeriod(Latest(records) - Earliest(records) + 1)).None?
    ensures r.Ok? ==> WellFormed(r.value)
    ensures r.Ok? ==>
              && Build(records) == Some(r.value.series)
              && |r.value.series.values| >= MinObservations
              && r.value.period == SeasonalPeriod(|r.value.series.values|)
              && r.value.window == ForecastWindow(r.value.series)
              && |r.value.predicted| == |r.value.window| == 5
              && lib(r.value.series, r.value.period).Some?
              && forall i :: 0 <= i < 5 ==>
                   r.value.predicted[i] == lib(r.value.series, r.value.period).value(r.value.window[i])
  {
    match Build(records)
    case None => Err(NoRecords)
    case Some(s) =>
      var n := |s.values|;
      if n < MinObservations then Err(TooFewMonths(n))
      else
        var p := SeasonalPeriod(n);
        match lib(s, p)
        case None => Err(LibraryRaised)
        case Some(predict) =>
          var w := ForecastWindow(s);
          Ok(Forecast(s, p, w, seq(|w|, i requires 0 <= i < |w| => predict(w[i]))))
  }

  /** A series of at least four months is never silently dropped: it is
      forecast over the full five-month window or the library's error
      propagates. */
  lemma LongEnoughIsForecast(records: seq<Record>, lib: Library)
    requires records != [] && Latest(records) - Earliest(records) + 1 >= MinObservations
    ensures Analyze(records, lib).Ok? || Analyze(records, lib) == Err(LibraryRaised)
    ensures Analyze(records, lib).Ok? ==>
              Analyze(records, lib).value.window[0] == LastMonth(Build(records).value) - 1
  {
  }

  /** The records span exactly the guard's minimum of four months. */
  predicate SpansFourMonths(records: seq<Record>) {
    records != [] && Latest(records) - Earliest(records) + 1 == MinObservations
  }

  /** A series spanning exactly four months passes the history guard but gets
      the annual period, so a library that needs two full cycles raises. */
  lemma FourMonthsRaises(records: seq<Record>, lib: Library)
    requires NeedsTwoCycles(lib)
    requires SpansFourMonths(records)
    ensures Analyze(records, lib) == Err(LibraryRaised)
  {
    var s := Build(records).value;
    assert |s.values| == 4 && SeasonalPeriod(4) == 12;
    assert lib(s, 12).None?;
  }

  /** Past four months two cycles always fit, so such a library raising there
      is not caused by the period choice. */
  lemma LongerSeriesFitTwoCycles(records: seq<Record>)
    requires records != [] && Latest(records) - Earliest(records) + 1 > 4
    ensures var n := |Build(records).value.values|; 2 * SeasonalPeriod(n) <= n
  {
    TwoCyclesFitIff(|Build(records).value.values|);
  }
}

=== FILE: months.dfy ===
/** Calendar months as consecutive integers.  A first-of-month timestamp of
    year `y` and month `mo` (1..12) is the index `y * 12 + (mo - 1)`, so one
    month later is always one index later and a month offset is an addition. */
module Months {

  /** A first-of-month date, as a month index. */
  type Month = int

  /** The English month names that `%B` formatting produces. */
  const MonthNames: seq<string> := [
    "January", "February", "March", "April", "May", "June",
    "July", "August", "September", "October", "November", "December"
  ]

  predicate ValidMonthOfYear(mo: int) {
    1 <= mo <= 12
  }

  /** The first of month `mo` of year `y`. */
  function FromYearMonth(y: int, mo: int): Month
    requires ValidMonthOfYear(mo)
  {
    y * 12 + (mo - 1)
  }

  function YearOf(m: Month): int {
    m / 12
  }

  function MonthOfYear(m: Month): (mo: int)
    ensures ValidMonthOfYear(mo)
  {
    m % 12 + 1
  }

  /** The (year, month) pair and the month index determine each other. */
  lemma YearMonthRoundTrip(y: int, mo: int)
    requires ValidMonthOfYear(mo)
    ensures YearOf(FromYearMonth(y, mo)) == y
    ensures MonthOfYear(FromYearMonth(y, mo)) == mo
  {
    var m := y * 12 + (mo - 1);
    assert m == 12 * y + (mo - 1);
    assert 0 <= mo - 1 < 12;
  }

  lemma MonthIndexRoundTrip(m: Month)
    ensures FromYearMonth(YearOf(m), MonthOfYear(m)) == m
  {
  }

  /** Calendar month arithmetic on (year, month) pairs, carrying into the year
      the way a month offset on a first-of-month date does. */
  function AddMonths(y: int, mo: int, k: int): (r: (int, int))
    requires ValidMonthOfYear(mo)
    ensures ValidMonthOfYear(r.1)
    ensures FromYearMonth(r.0, r.1) == FromYearMonth(y, mo) + k
  {
    var t := mo - 1 + k;
    (y + t / 12, t % 12 + 1)
  }

  /** The year-less label of a month. */
  function Label(m: Month): (name: string)
    ensures name in MonthNames
  {
    MonthNames[m % 12]
  }

  /** The first of month `mo` of any year is labelled with the `mo`-th month
      name, January being the first. */
  lemma LabelOfMonth(y: int, mo: int)
    requires ValidMonthOfYear(mo)
    ensures Label(FromYearMonth(y, mo)) == MonthNames[mo - 1]
  {
    YearMonthRoundTrip(y, mo);
  }

  lemma MonthNamesDistinct()
    ensures forall i, j :: 0 <= i < j < |MonthNames| ==> MonthNames[i] != MonthNames[j]
  {
  }

  /** Two months share a label exactly when they are a whole number of years
      apart: labels repeat across years and never within one. */
  lemma LabelsEqualIff(m: Month, n: Month)
    ensures Label(m) == Label(n) <==> m % 12 == n % 12
  {
    MonthNamesDistinct();
  }

  /** Any month has the same label as the month twelve months later, so a
      series longer than a year repeats labels. */
  lemma LabelRepeatsAfterYear(m: Month)
    ensures Label(m + 12) == Label(m)
  {
    assert (m + 12) % 12 == m % 12;
  }
}

=== FILE: pipeline.dfy ===
/** One analysis request: the general series, then every category in order,
    each built and forecast and shaped into records, followed by the
    combination of the category records onto the general month names.  The
    accumulator is a fresh value per request.  The records of each series are
    inputs (they come from an upstream service), and so is the numerical
    library. */
module Pipeline {
  import opened Wrappers
  import opened Months
  import opened SeriesBuilder
  import opened Forecaster
  import opened Shaping
  import opened Aligner

  /** The general series' observed and predicted records. */
  datatype GeneralData = GeneralData(realData: seq<Entry>, predictData: seq<Entry>)

  /** A successful request's payload: the general records and the combined
      category records. */
  datatype Report = Report(general: GeneralData, categories: seq<Entry>)

  /** Why a request failed as a whole: the numerical library raised while
      analysing some series, or a field lookup failed while combining. */
  datatype RequestError = LibraryError | LookupFailed(cause: LookupError)

  /** The outcome of analysing one series. */
  type Outcome = Result<Forecast, Failure>

  /** The library raised while analysing the series. */
  predicate Raised(o: Outcome) {
    o == Err(LibraryRaised)
  }

  /** The series was quietly left out: no records, or too few months. */
  predicate Skipped(o: Outcome) {
    o.Err? && !Raised(o)
  }

  /** What every outcome of `Analyze` satisfies. */
  predicate Sound(o: Outcome) {
    o.Ok? ==> WellFormed(o.value)
  }

  predicate AllSound(os: seq<Outcome>) {
    forall k :: 0 <= k < |os| ==> Sound(os[k])
  }

  /** The shaped records of a forecast category. */
  function CategoryOf(f: Forecast, name: string): (cd: CategoryData)
    requires WellFormed(f)
    ensures ShapedFor(cd, name)
    ensures |cd.realData| == |f.series.values| && |cd.predictData| == |f.window|
  {
    var rs := RealData(f.series, Category(name));
    var ps := PredictData(f, Category(name));
    assert forall p :: p in rs ==> exists i :: 0 <= i < |rs| && rs[i] == p;
    assert forall p :: p in ps ==> exists i :: 0 <= i < |ps| && ps[i] == p;
    CategoryData(rs, ps)
  }

  /** The general series' records; a skipped general series leaves the fresh
      accumulator's empty lists in place. */
  function GeneralPart(o: Outcome): (r: Result<GeneralData, RequestError>)
    requires Sound(o)
    ensures r.Err? <==> Raised(o)
    ensures Skipped(o) ==> r == Ok(GeneralData([], []))
    ensures o.Ok? ==> r.Ok? && |r.value.realData| == |o.value.series.values|
    ensures o.Ok? ==> r == Ok(GeneralData(RealData(o.value.series, General), PredictData(o.value, General)))
    ensures r.Ok? ==> forall e: Entry :: e in r.value.realData ==> DateKey in e && e[DateKey].JStr?
  {
    match o
    case Ok(f) =>
      var rs := RealData(f.series, General);
      assert forall e :: e in rs ==> exists i :: 0 <= i < |rs| && rs[i] == e;
      Ok(GeneralData(rs, PredictData(f, General)))
    case Err(LibraryRaised) => Err(LibraryError)
    case Err(_) => Ok(GeneralData([], []))
  }

  /** The category results from position `k` on, in order, skipping the
      categories without enough data and stopping at a library error. */
  function CollectFrom(os: seq<Outcome>, k: nat): (r: Result<seq<CategoryData>, RequestError>)
    requires |os| <= |Categories| && k <= |os| && AllSound(os)
    ensures r.Err? ==> r == Err(LibraryError)
    ensures r.Ok? ==> |r.value| <= |os| - k
    decreases |os| - k
  {
    if k == |os| then Ok([])
    else
      match os[k]
      case Err(LibraryRaised) => Err(LibraryError)
      case Err(_) => CollectFrom(os, k + 1)
      case Ok(f) =>
        var rest :- CollectFrom(os, k + 1);
        Ok([CategoryOf(f, Categories[k])] + rest)
  }

  /** Collecting fails exactly when some category from `k` on raised. */
  lemma {:induction false} CollectRaisedIff(os: seq<Outcome>, k: nat)
    requires |os| <= |Categories| && k <= |os| && AllSound(os)
    ensures CollectFrom(os, k).Err? <==> exists j :: k <= j < |os| && Raised(os[j])
    decreases |os| - k
  {
    if k < |os| {
      CollectRaisedIff(os, k + 1);
      if Raised(os[k]) {
        assert CollectFrom(os, k).Err?;
      } else {
        assert CollectFrom(os, k).Err? <==> CollectFrom(os, k + 1).Err?;
        assert (exists j :: k <= j < |os| && Raised(os[j])) ==> exists j :: k + 1 <= j < |os| && Raised(os[j]);
      }
    }
  }

  /** The month names of records that all carry a date string. */
  function DateLabels(entries: seq<Entry>): (ls: seq<string>)
    requires forall e: Entry :: e in entries ==> DateKey in e && e[DateKey].JStr?
    ensures |ls| == |entries|
    ensures forall i :: 0 <= i < |entries| ==> entries[i][DateKey] == JStr(ls[i])
  {
    seq(|entries|, i requires 0 <= i < |entries| => entries[i][DateKey].s)
  }

  /** Assembles the response from the general outcome and the category
      outcomes, in category order. */
  function Respond(g: Outcome, os: seq<Outcome>): (r: Result<Report, RequestError>)
    requires |os| == |Categories| && Sound(g) && AllSound(os)
    ensures r.Ok? ==> |r.value.categories| == |r.value.general.realData|
    ensures r.Ok? && g.Ok? ==>
              r.value.general == GeneralData(RealData(g.value.series, General), PredictData(g.value, General))
    ensures r.Ok? && Skipped(g) ==> r.value == Report(GeneralData([], []), [])
  {
    match GeneralPart(g)
    case Err(e) => Err(e)
    case Ok(gd) =>
      match CollectFrom(os, 0)
      case Err(e) => Err(e)
      case Ok(cats) =>
        var dates := DateLabels(gd.realData);
        match Combine(dates, cats, Categories)
        case Err(e) => Err(LookupFailed(e))
        case Ok(combined) => Ok(Report(gd, combined))
  }

  /** The outcome of every category's analysis, in category order. */
  function Outcomes(perCategory: seq<seq<Record>>, lib: Library): (os: seq<Outcome>)
    ensures |os| == |perCategory| && AllSound(os)
    ensures forall k :: 0 <= k < |os| ==> os[k] == Analyze(perCategory[k], lib)
  {
    seq(|perCategory|, k requires 0 <= k < |perCategory| => Analyze(perCategory[k], lib))
  }

  /** Serves one request from the records fetched for the general series and
      for each category, in the order of the category list. */
  function HandleRequest(general: seq<Record>, perCategory: seq<seq<Record>>, lib: Library)
    : (r: Result<Report, RequestError>)
    requires |perCategory| == |Categories|
    ensures r.Ok? ==> |r.value.categories| == |r.value.general.realData|
    ensures r.Ok? && Analyze(general, lib).Ok? ==>
              r.value.general == GeneralData(RealData(Build(general).value, General),
                                             PredictData(Analyze(general, lib).value, General))
    ensures r.Ok? && Analyze(general, lib).Err? ==> r.value == Report(GeneralData([], []), [])
  {
    Respond(Analyze(general, lib), Outcomes(perCategory, lib))
  }

  /** The request fails with a library error exactly when the analysis of the
      general series or of some category raises; a per-category library error
      is not contained to its category. */
  lemma LibraryErrorIff(g: Outcome, os: seq<Outcome>)
    requires |os| == |Categories| && Sound(g) && AllSound(os)
    ensures Respond(g, os) == Err(LibraryError) <==>
              Raised(g) || exists k :: 0 <= k < |os| && Raised(os[k])
  {
    var gp := GeneralPart(g);
    CollectRaisedIff(os, 0);
    if gp.Ok? && CollectFrom(os, 0).Ok? {
      assert Respond(g, os).Ok? || Respond(g, os).error.LookupFailed?;
    }
  }

  lemma RequestLibraryErrorIff(general: seq<Record>, perCategory: seq<seq<Record>>, lib: Library)
    requires |perCategory| == |Categories|
    ensures HandleRequest(general, perCategory, lib) == Err(LibraryError) <==>
              Analyze(general, lib) == Err(LibraryRaised)
              || exists k :: 0 <= k < |perCategory| && Analyze(perCategory[k], lib) == Err(LibraryRaised)
  {
    var os := Outcomes(perCategory, lib);
    LibraryErrorIff(Analyze(general, lib), os);
    if exists k :: 0 <= k < |perCategory| && Analyze(perCategory[k], lib) == Err(LibraryRaised) {
      var k :| 0 <= k < |perCategory| && Analyze(perCategory[k], lib) == Err(LibraryRaised);
      assert Raised(os[k]);
    }
  }

  /** A skipped general series leaves nothing to combine against: the request
      still succeeds, with empty general records and no combined records. */
  lemma GeneralSkippedGivesEmptyReport(g: Outcome, os: seq<Outcome>)
    requires |os| == |Categories| && Sound(g) && AllSound(os)
    requires Skipped(g)
    requires forall k :: 0 <= k < |os| ==> !Raised(os[k])
    ensures Respond(g, os) == Ok(Report(GeneralData([], []), []))
  {
    var cp := CollectFrom(os, 0);
    CollectRaisedIff(os, 0);
    assert cp.Ok?;
    assert DateLabels([]) == [];
    assert Combine([], cp.value, Categories) == Ok([]);
  }

  /** The month names of a forecast's window, in order. */
  function WindowLabels(f: Forecast): (ls: seq<string>)
    ensures |ls| == |f.window|
  {
    seq(|f.window|, i requires 0 <= i < |f.window| => Label(f.window[i]))
  }

  /** A category's observed records match a month name exactly when its
      series has a month of that name. */
  lemma MatchingObserved(f: Forecast, name: string, date: string)
    requires WellFormed(f)
    ensures Matching(CategoryOf(f, name).realData, date) != [] <==> date in SeriesLabels(f.series)
  {
    var rs := CategoryOf(f, name).realData;
    var ms := Matching(rs, date);
    MatchingMembers(rs, date);
    if date in SeriesLabels(f.series) {
      var j :| 0 <= j < |f.series.values| && SeriesLabels(f.series)[j] == date;
      assert rs[j] in rs && rs[j][DateKey] == JStr(date);
    }
    if ms != [] {
      assert ms[0] in ms;
      var j :| 0 <= j < |rs| && rs[j] == ms[0];
      assert SeriesLabels(f.series)[j] == date;
    }
  }

  /** A category's predicted records match a month name exactly when its
      window has a month of that name. */
  lemma MatchingPredicted(f: Forecast, name: string, date: string)
    requires WellFormed(f)
    ensures Matching(CategoryOf(f, name).predictData, date) != [] <==> date in WindowLabels(f)
  {
    var ps := CategoryOf(f, name).predictData;
    var ms := Matching(ps, date);
    MatchingMembers(ps, date);
    if date in WindowLabels(f) {
      var j :| 0 <= j < |f.window| && WindowLabels(f)[j] == date;
      assert ps[j] in ps && ps[j][DateKey] == JStr(date);
    }
    if ms != [] {
      assert ms[0] in ms;
      var j :| 0 <= j < |ps| && ps[j] == ms[0];
      assert WindowLabels(f)[j] == date;
    }
  }

  /** No category that yields a result comes after one that is skipped. */
  predicate NoGapBefore(os: seq<Outcome>) {
    forall j, k :: 0 <= j < k < |os| && os[k].Ok? ==> os[j].Ok?
  }

  /** The collected results, when the skipped categories all come last, are
      those of the categories with results, in category order. */
  lemma LeadingResults(os: seq<Outcome>)
    requires |os| == |Categories| && AllSound(os) && NoGapBefore(os)
    requires forall j :: 0 <= j < |os| ==> !Raised(os[j])
    ensures CollectFrom(os, 0).Ok?
    ensures var cats := CollectFrom(os, 0).value;
      && |cats| <= |os|
      && (forall j :: 0 <= j < |cats| ==> os[j].Ok? && cats[j] == CategoryOf(os[j].value, Categories[j]))
      && (forall j :: |cats| <= j < |os| ==> os[j].Err?)
  {
    CollectPositions(os, 0);
    var cats, ps := CollectFrom(os, 0).value, ForecastPositions(os, 0);
    forall p | 0 <= p < |ps|
      ensures ps[p] == p
    {
      NoGapIsInPlace(os, p);
    }
    forall j | 0 <= j < |cats|
      ensures os[j].Ok? && cats[j] == CategoryOf(os[j].value, Categories[j])
    {
      assert ps[j] == j;
    }
    forall j | |cats| <= j < |os|
      ensures os[j].Err?
    {
      assert j !in ps by {
        forall p | 0 <= p < |ps|
          ensures ps[p] != j
        {
          assert ps[p] == p;
        }
      }
    }
  }

  /** Results shaped for different categories are different. */
  lemma CategoryOfDistinct(f: Forecast, g: Forecast, a: string, b: string)
    requires WellFormed(f) && WellFormed(g) && a != b
    ensures CategoryOf(f, a) != CategoryOf(g, b)
  {
    KeyFamiliesDisjoint(a, b);
    KeyFamiliesDisjoint(a, a);
    assert RealKey(a) in CategoryOf(f, a).realData[0];
    assert RealKey(a) !in CategoryOf(g, b).realData[0];
  }

  /** The collected results of leading categories are well placed. */
  lemma LeadingWellPlaced(os: seq<Outcome>)
    requires |os| == |Categories| && AllSound(os) && NoGapBefore(os)
    requires forall j :: 0 <= j < |os| ==> !Raised(os[j])
    ensures CollectFrom(os, 0).Ok?
    ensures WellPlaced(CollectFrom(os, 0).value, Categories)
  {
    LeadingResults(os);
    var cats := CollectFrom(os, 0).value;
    CollectedDistinct(os);
    CategoriesDistinct();
    forall k | 0 <= k < |cats|
      ensures ShapedFor(cats[k], Categories[k])
    {
      assert os[k].Ok?;
    }
  }

  /** The general records' month names are the general series' month names. */
  lemma GeneralLabels(g: Outcome)
    requires Sound(g) && g.Ok?
    ensures DateLabels(GeneralPart(g).value.realData) == SeriesLabels(g.value.series)
  {
    var rs := GeneralPart(g).value.realData;
    var ls := DateLabels(rs);
    assert forall i :: 0 <= i < |ls| ==> JStr(ls[i]) == rs[i][DateKey];
  }

  /** When no category is skipped ahead of one with a result and nothing
      raises, the request succeeds, and its combined records are as
      `CombinedRecords` describes. */
  lemma AlignedReport(g: Outcome, os: seq<Outcome>)
    requires |os| == |Categories| && Sound(g) && AllSound(os)
    requires g.Ok? && NoGapBefore(os)
    requires forall k :: 0 <= k < |os| ==> !Raised(os[k])
    ensures Respond(g, os).Ok?
    ensures var entries, labels := Respond(g, os).value.categories, SeriesLabels(g.value.series);
      && |entries| == |labels|
      && (forall i :: 0 <= i < |entries| ==> DateKey in entries[i] && entries[i][DateKey] == JStr(labels[i]))
      && (forall i :: 0 <= i < |entries| ==> entries[i].Keys <= {DateKey} + FieldKeys(Categories, |Categories|))
      && (forall i, k :: 0 <= i < |entries| && 0 <= k < |os| ==>
            && (RealKey(Categories[k]) in entries[i] <==> os[k].Ok? && labels[i] in SeriesLabels(os[k].value.series))
            && (HwKey(Categories[k]) in entries[i] <==> os[k].Ok? && labels[i] in WindowLabels(os[k].value)))
  {
    var dates := DateLabels(GeneralPart(g).value.realData);
    LeadingWellPlaced(os);
    CombineAligned(dates, CollectFrom(os, 0).value, Categories);
    CombinedRecords(g, os);
  }

  /** Whenever the request succeeds with the general series forecast, it has
      one combined record per general month, in order, named as that month;
      category `k`'s observed field appears in a record exactly when category
      `k` was forecast and its series has a month of that name, its predicted
      field exactly when its window has one, and no record holds any other
      field.  A result read under another category's name adds nothing, as it
      shares no general month name. */
  lemma CombinedRecords(g: Outcome, os: seq<Outcome>)
    requires |os| == |Categories| && Sound(g) && AllSound(os)
    requires g.Ok? && forall k :: 0 <= k < |os| ==> !Raised(os[k])
    requires Respond(g, os).Ok?
    ensures var entries, labels := Respond(g, os).value.categories, SeriesLabels(g.value.series);
      && |entries| == |labels|
      && (forall i :: 0 <= i < |entries| ==> DateKey in entries[i] && entries[i][DateKey] == JStr(labels[i]))
      && (forall i :: 0 <= i < |entries| ==> entries[i].Keys <= {DateKey} + FieldKeys(Categories, |Categories|))
      && (forall i, k :: 0 <= i < |entries| && 0 <= k < |os| ==>
            && (RealKey(Categories[k]) in entries[i] <==> os[k].Ok? && labels[i] in SeriesLabels(os[k].value.series))
            && (HwKey(Categories[k]) in entries[i] <==> os[k].Ok? && labels[i] in WindowLabels(os[k].value)))
  {
    var gd := GeneralPart(g).value;
    GeneralLabels(g);
    var dates := DateLabels(gd.realData);
    var cats := CombinedAligned(g, os);
    var entries := Combine(dates, cats, Categories).value;
    assert Respond(g, os) == Ok(Report(gd, entries));
    FieldKeysGrow(Categories, |cats|, |Categories|);
    forall i, k | 0 <= i < |entries| && 0 <= k < |os|
      ensures RealKey(Categories[k]) in entries[i] <==> os[k].Ok? && dates[i] in SeriesLabels(os[k].value.series)
      ensures HwKey(Categories[k]) in entries[i] <==> os[k].Ok? && dates[i] in WindowLabels(os[k].value)
    {
      EntryFields(entries[i], dates[i], os, cats, k);
    }
  }

  /** A successful request's combined records are aligned with the collected
      results, which nothing misreads at any general month name. */
  lemma CombinedAligned(g: Outcome, os: seq<Outcome>) returns (cats: seq<CategoryData>)
    requires |os| == |Categories| && Sound(g) && AllSound(os)
    requires g.Ok? && forall k :: 0 <= k < |os| ==> !Raised(os[k])
    requires Respond(g, os).Ok?
    ensures CollectFrom(os, 0) == Ok(cats) && Placed(cats, Categories)
    ensures var dates := DateLabels(GeneralPart(g).value.realData);
      && dates == SeriesLabels(g.value.series)
      && Combine(dates, cats, Categories).Ok?
      && |Combine(dates, cats, Categories).value| == |dates|
      && (forall i :: 0 <= i < |dates| ==> NoMisreadAt(os, dates[i]))
      && (forall i :: 0 <= i < |dates| ==>
            AlignedUpTo(Combine(dates, cats, Categories).value[i], dates[i], cats, Categories, |cats|))
  {
    GeneralLabels(g);
    var dates := DateLabels(GeneralPart(g).value.realData);
    LookupFailureIff(g, os);
    CollectPositions(os, 0);
    CollectedDistinct(os);
    CategoriesDistinct();
    cats := CollectFrom(os, 0).value;
    forall i | 0 <= i < |dates|
      ensures NoMisreadAt(os, dates[i])
    {
      forall j, k | 0 <= j < k < |os| && Skipped(os[j]) && os[k].Ok?
        ensures !SharesName(os[k].value, dates[i])
      {
      }
    }
    forall i, p | 0 <= i < |dates| && 0 <= p < |cats|
      ensures ShapedFor(cats[p], Categories[p]) || Quiet(cats[p], dates[i])
    {
      PlacedOrQuiet(os, dates[i], p);
    }
    CombinePlaced(dates, cats, Categories);
  }

  /** One combined record's fields for category `k`, in terms of that
      category's outcome. */
  lemma EntryFields(e: Entry, date: string, os: seq<Outcome>, cats: seq<CategoryData>, k: nat)
    requires |os| == |Categories| && AllSound(os) && k < |os|
    requires forall n :: 0 <= n < |os| ==> !Raised(os[n])
    requires NoMisreadAt(os, date)
    requires CollectFrom(os, 0) == Ok(cats) && Placed(cats, Categories)
    requires AlignedUpTo(e, date, cats, Categories, |cats|)
    ensures RealKey(Categories[k]) in e <==> os[k].Ok? && date in SeriesLabels(os[k].value.series)
    ensures HwKey(Categories[k]) in e <==> os[k].Ok? && date in WindowLabels(os[k].value)
  {
    CollectPositions(os, 0);
    var ps := ForecastPositions(os, 0);
    if k < |cats| && ps[k] == k {
      InPlaceFields(e, date, os, cats, k);
    } else {
      if os[k].Ok? {
        OutOfPlaceShares(os, date, k);
      }
      if k < |cats| {
        PlacedOrQuiet(os, date, k);
        QuietHasNoFields(e, date, cats, Categories, k);
      } else {
        AbsentCategoryHasNoFields(e, date, cats, Categories, k);
      }
    }
  }

  /** A category collected at its own position reports its own records. */
  lemma InPlaceFields(e: Entry, date: string, os: seq<Outcome>, cats: seq<CategoryData>, k: nat)
    requires |os| == |Categories| && AllSound(os) && k < |cats| <= |os|
    requires CollectedAt(os, cats, ForecastPositions(os, 0)) && ForecastPositions(os, 0)[k] == k
    requires AlignedUpTo(e, date, cats, Categories, |cats|)
    ensures RealKey(Categories[k]) in e <==> os[k].Ok? && date in SeriesLabels(os[k].value.series)
    ensures HwKey(Categories[k]) in e <==> os[k].Ok? && date in WindowLabels(os[k].value)
  {
    assert os[k].Ok? && cats[k] == CategoryOf(os[k].value, Categories[k]);
    MatchingObserved(os[k].value, Categories[k], date);
    MatchingPredicted(os[k].value, Categories[k], date);
  }

  /** A forecast category that is not collected at its own position shares
      no month name with the general series. */
  lemma OutOfPlaceShares(os: seq<Outcome>, date: string, k: nat)
    requires k < |os| && os[k].Ok? && NoMisreadAt(os, date)
    requires forall n :: 0 <= n < |os| ==> !Raised(os[n])
    requires k >= |ForecastPositions(os, 0)| || ForecastPositions(os, 0)[k] != k
    ensures !SharesName(os[k].value, date)
  {
    var ps := ForecastPositions(os, 0);
    assert k in ps;
    var q :| 0 <= q < |ps| && ps[q] == k;
    assert q != k;
    InPlaceIff(os, q);
    var j :| 0 <= j < k && os[j].Err?;
    assert Skipped(os[j]);
  }

  /** The positions from `k` on whose category was forecast, in order. */
  function ForecastPositions(os: seq<Outcome>, k: nat): (ps: seq<nat>)
    requires k <= |os|
    ensures forall p :: 0 <= p < |ps| ==> k <= ps[p] < |os| && os[ps[p]].Ok?
    ensures forall p, q :: 0 <= p < q < |ps| ==> ps[p] < ps[q]
    ensures forall j :: k <= j < |os| && os[j].Ok? ==> j in ps
    decreases |os| - k
  {
    if k == |os| then []
    else if os[k].Ok? then [k] + ForecastPositions(os, k + 1)
    else ForecastPositions(os, k + 1)
  }

  /** The collected results `cats` are those of the forecast positions `ps`,
      each shaped for the category at its own position. */
  predicate CollectedAt(os: seq<Outcome>, cats: seq<CategoryData>, ps: seq<nat>) {
    && |cats| == |ps|
    && forall p :: 0 <= p < |ps| ==>
         && ps[p] < |os| && ps[p] < |Categories| && os[ps[p]].Ok? && WellFormed(os[ps[p]].value)
         && cats[p] == CategoryOf(os[ps[p]].value, Categories[ps[p]])
  }

  /** With nothing raising from `k` on, the `p`-th collected result is the
      `p`-th forecast category's, shaped for that category's own name. */
  lemma {:induction false} CollectPositions(os: seq<Outcome>, k: nat)
    requires |os| <= |Categories| && k <= |os| && AllSound(os)
    requires forall j :: k <= j < |os| ==> !Raised(os[j])
    ensures CollectFrom(os, k).Ok?
    ensures CollectedAt(os, CollectFrom(os, k).value, ForecastPositions(os, k))
    decreases |os| - k
  {
    if k < |os| {
      CollectPositions(os, k + 1);
      if os[k].Ok? {
        CollectForecastStep(os, k);
      } else {
        CollectSkippedStep(os, k);
      }
    }
  }

  /** A forecast category puts its result and its position in front. */
  lemma CollectForecastStep(os: seq<Outcome>, k: nat)
    requires |os| <= |Categories| && k < |os| && AllSound(os) && os[k].Ok?
    requires CollectFrom(os, k + 1).Ok?
    requires CollectedAt(os, CollectFrom(os, k + 1).value, ForecastPositions(os, k + 1))
    ensures CollectFrom(os, k).Ok?
    ensures CollectedAt(os, CollectFrom(os, k).value, ForecastPositions(os, k))
  {
    var rest, later := CollectFrom(os, k + 1).value, ForecastPositions(os, k + 1);
    PrependCollected(os, k, rest, later);
    assert CollectFrom(os, k).value == [CategoryOf(os[k].value, Categories[k])] + rest;
    assert ForecastPositions(os, k) == [k] + later;
  }

  /** A skipped category adds neither a result nor a position. */
  lemma CollectSkippedStep(os: seq<Outcome>, k: nat)
    requires |os| <= |Categories| && k < |os| && AllSound(os) && Skipped(os[k])
    requires CollectFrom(os, k + 1).Ok?
    requires CollectedAt(os, CollectFrom(os, k + 1).value, ForecastPositions(os, k + 1))
    ensures CollectFrom(os, k).Ok?
    ensures CollectedAt(os, CollectFrom(os, k).value, ForecastPositions(os, k))
  {
    assert CollectFrom(os, k) == CollectFrom(os, k + 1);
    assert ForecastPositions(os, k) == ForecastPositions(os, k + 1);
  }

  /** A forecast category prepends its result and its position. */
  lemma PrependCollected(os: seq<Outcome>, k: nat, rest: seq<CategoryData>, later: seq<nat>)
    requires k < |os| && k < |Categories| && os[k].Ok? && WellFormed(os[k].value)
    requires CollectedAt(os, rest, later)
    ensures CollectedAt(os, [CategoryOf(os[k].value, Categories[k])] + rest, [k] + later)
  {
    var cats, ps := [CategoryOf(os[k].value, Categories[k])] + rest, [k] + later;
    forall p | 0 < p < |ps|
      ensures ps[p] < |os| && ps[p] < |Categories| && os[ps[p]].Ok? && WellFormed(os[ps[p]].value)
      ensures cats[p] == CategoryOf(os[ps[p]].value, Categories[ps[p]])
    {
      assert cats[p] == rest[p - 1] && ps[p] == later[p - 1];
    }
  }

  /** Increasing positions grow at least as fast as their index. */
  lemma {:induction false} PositionGaps(ps: seq<nat>, q: nat, p: nat)
    requires forall a, b :: 0 <= a < b < |ps| ==> ps[a] < ps[b]
    requires q <= p < |ps|
    ensures ps[p] - ps[q] >= p - q
    decreases p - q
  {
    if q < p {
      PositionGaps(ps, q + 1, p);
    }
  }

  /** The `p`-th forecast category sits at position `p` exactly when every
      category before it was forecast too. */
  lemma InPlaceIff(os: seq<Outcome>, p: nat)
    requires p < |ForecastPositions(os, 0)|
    ensures var ps := ForecastPositions(os, 0);
      ps[p] == p <==> forall j :: 0 <= j < ps[p] ==> os[j].Ok?
  {
    if ForecastPositions(os, 0)[p] == p {
      InPlaceHasNoGap(os, p);
    } else if forall j :: 0 <= j < ForecastPositions(os, 0)[p] ==> os[j].Ok? {
      NoGapIsInPlace(os, p);
    }
  }

  lemma InPlaceHasNoGap(os: seq<Outcome>, p: nat)
    requires p < |ForecastPositions(os, 0)| && ForecastPositions(os, 0)[p] == p
    ensures forall j :: 0 <= j < p ==> os[j].Ok?
  {
    var ps := ForecastPositions(os, 0);
    forall j | 0 <= j < p
      ensures os[j].Ok?
    {
      PositionGaps(ps, j, p);
      PositionGaps(ps, 0, j);
      assert ps[j] == j;
    }
  }

  lemma {:induction false} NoGapIsInPlace(os: seq<Outcome>, p: nat)
    requires p < |ForecastPositions(os, 0)|
    requires forall j :: 0 <= j < ForecastPositions(os, 0)[p] ==> os[j].Ok?
    ensures ForecastPositions(os, 0)[p] == p
    decreases p
  {
    var ps := ForecastPositions(os, 0);
    PositionGaps(ps, 0, p);
    if ps[p] != 0 {
      var m := ps[p] - 1;
      assert m in ps;
      var q :| 0 <= q < |ps| && ps[q] == m;
      assert q < p;
      NoGapIsInPlace(os, q);
    }
  }

  /** With nothing raising, the collected results are pairwise different. */
  lemma CollectedDistinct(os: seq<Outcome>)
    requires |os| == |Categories| && AllSound(os)
    requires forall j :: 0 <= j < |os| ==> !Raised(os[j])
    ensures CollectFrom(os, 0).Ok? && Distinct(CollectFrom(os, 0).value)
  {
    CollectPositions(os, 0);
    CategoriesDistinct();
    var cats, ps := CollectFrom(os, 0).value, ForecastPositions(os, 0);
    forall a, b | 0 <= a < b < |cats|
      ensures cats[a] != cats[b]
    {
      CategoryOfDistinct(os[ps[a]].value, os[ps[b]].value, Categories[ps[a]], Categories[ps[b]]);
    }
  }

  /** A forecast shares month name `date` when its series or its window has a
      month of that name. */
  predicate SharesName(f: Forecast, date: string) {
    date in SeriesLabels(f.series) || date in WindowLabels(f)
  }

  /** No forecast category after a skipped one shares month name `date`. */
  predicate NoMisreadAt(os: seq<Outcome>, date: string) {
    forall j, k :: 0 <= j < k < |os| && Skipped(os[j]) && os[k].Ok? ==> !SharesName(os[k].value, date)
  }

  /** A category's records lack every other category's fields. */
  lemma CategoryLacksOtherField(f: Forecast, name: string, other: string)
    requires WellFormed(f) && name != other
    ensures Lacks(CategoryOf(f, name).realData, RealKey(other))
    ensures Lacks(CategoryOf(f, name).predictData, HwKey(other))
  {
    ObservedLacksOtherField(f.series, name, other);
    PredictedLacksOtherField(f, name, other);
  }

  lemma ObservedLacksOtherField(s: Series, name: string, other: string)
    requires name != other
    ensures Lacks(RealData(s, Category(name)), RealKey(other))
  {
    KeyFamiliesDisjoint(other, name);
    var rs := RealData(s, Category(name));
    forall q | q in rs
      ensures DateKey in q && RealKey(other) !in q
    {
      var t :| 0 <= t < |rs| && rs[t] == q;
      assert q.Keys == {DateKey, RealKey(name)};
    }
  }

  lemma PredictedLacksOtherField(f: Forecast, name: string, other: string)
    requires WellFormed(f) && name != other
    ensures Lacks(PredictData(f, Category(name)), HwKey(other))
  {
    KeyFamiliesDisjoint(other, name);
    KeyFamiliesDisjoint(other, other);
    var ps := PredictData(f, Category(name));
    forall q | q in ps
      ensures DateKey in q && HwKey(other) !in q
    {
      var t :| 0 <= t < |ps| && ps[t] == q;
      assert q.Keys == {DateKey, NullKey(Category(name)), HwKey(name)};
    }
  }

  /** A record of a category's result dated with month name `date`, when its
      forecast shares that name. */
  lemma DatedRecord(f: Forecast, name: string, date: string) returns (rec: Entry)
    requires WellFormed(f) && SharesName(f, date)
    ensures rec in CategoryOf(f, name).realData || rec in CategoryOf(f, name).predictData
    ensures DateKey in rec && rec[DateKey] == JStr(date)
  {
    var cd := CategoryOf(f, name);
    if date in SeriesLabels(f.series) {
      var t :| 0 <= t < |f.series.values| && SeriesLabels(f.series)[t] == date;
      rec := cd.realData[t];
    } else {
      var t :| 0 <= t < |f.window| && WindowLabels(f)[t] == date;
      rec := cd.predictData[t];
    }
  }

  /** A forecast category with a skipped category before it is collected at
      an earlier position, so its records are looked up under the field
      names of another category; any month name it shares with the general
      series then makes the request fail with a lookup error. */
  lemma SkippedCategoryBreaksRequest(g: Outcome, os: seq<Outcome>, j: nat, k: nat, i: nat)
    requires |os| == |Categories| && Sound(g) && AllSound(os)
    requires g.Ok? && forall n :: 0 <= n < |os| ==> !Raised(os[n])
    requires j < k < |os| && Skipped(os[j]) && os[k].Ok?
    requires i < |g.value.series.values| && SharesName(os[k].value, SeriesLabels(g.value.series)[i])
    ensures Respond(g, os).Err? && Respond(g, os).error.LookupFailed?
  {
    var gd := GeneralPart(g).value;
    GeneralLabels(g);
    var dates := DateLabels(gd.realData);
    CollectPositions(os, 0);
    CollectedDistinct(os);
    CategoriesDistinct();
    var cats, ps := CollectFrom(os, 0).value, ForecastPositions(os, 0);
    assert k in ps;
    var p :| 0 <= p < |ps| && ps[p] == k;
    InPlaceIff(os, p);
    assert p != k;
    CategoryLacksOtherField(os[k].value, Categories[k], Categories[p]);
    var rec := DatedRecord(os[k].value, Categories[k], dates[i]);
    MisnamedResultFails(dates, cats, Categories, p, rec, i);
  }

  /** Without a skipped category ahead of a forecast one that shares a month
      name with the general series, every collected result is either shaped
      for the name at its position or has no record carrying `date`. */
  lemma PlacedOrQuiet(os: seq<Outcome>, date: string, p: nat)
    requires |os| == |Categories| && AllSound(os)
    requires forall n :: 0 <= n < |os| ==> !Raised(os[n])
    requires NoMisreadAt(os, date)
    requires p < |ForecastPositions(os, 0)|
    ensures CollectFrom(os, 0).Ok? && p < |CollectFrom(os, 0).value|
    ensures var cd := CollectFrom(os, 0).value[p]; ShapedFor(cd, Categories[p]) || Quiet(cd, date)
    ensures ForecastPositions(os, 0)[p] != p ==> Quiet(CollectFrom(os, 0).value[p], date)
  {
    CollectPositions(os, 0);
    var cats, ps := CollectFrom(os, 0).value, ForecastPositions(os, 0);
    var k := ps[p];
    assert os[k].Ok? && WellFormed(os[k].value) && cats[p] == CategoryOf(os[k].value, Categories[k]);
    InPlaceIff(os, p);
    if k != p {
      var j :| 0 <= j < k && os[j].Err?;
      assert Skipped(os[j]);
      assert !SharesName(os[k].value, date);
      UnsharedIsQuiet(os[k].value, Categories[k], date);
    }
  }

  /** A category whose series and window have no month named `date` has no
      record carrying that name. */
  lemma UnsharedIsQuiet(f: Forecast, name: string, date: string)
    requires WellFormed(f) && !SharesName(f, date)
    ensures Quiet(CategoryOf(f, name), date)
  {
    MatchingObserved(f, name, date);
    MatchingPredicted(f, name, date);
  }

  /** With the general series forecast and nothing raising, the request fails
      exactly when some forecast category comes after a skipped one and
      shares a month name with the general series; the failure is then a
      lookup error. */
  lemma LookupFailureIff(g: Outcome, os: seq<Outcome>)
    requires |os| == |Categories| && Sound(g) && AllSound(os)
    requires g.Ok? && forall n :: 0 <= n < |os| ==> !Raised(os[n])
    ensures Respond(g, os).Err? ==> Respond(g, os).error.LookupFailed?
    ensures Respond(g, os).Err? <==>
              exists j, k, i :: 0 <= j < k < |os| && Skipped(os[j]) && os[k].Ok?
                && 0 <= i < |g.value.series.values| && SharesName(os[k].value, SeriesLabels(g.value.series)[i])
  {
    var labels := SeriesLabels(g.value.series);
    if exists j, k, i :: 0 <= j < k < |os| && Skipped(os[j]) && os[k].Ok?
         && 0 <= i < |g.value.series.values| && SharesName(os[k].value, labels[i]) {
      var j, k, i :| 0 <= j < k < |os| && Skipped(os[j]) && os[k].Ok?
         && 0 <= i < |g.value.series.values| && SharesName(os[k].value, labels[i]);
      SkippedCategoryBreaksRequest(g, os, j, k, i);
    } else {
      NothingMisreadCombines(g, os);
    }
  }

  /** The success half of `LookupFailureIff`. */
  lemma NothingMisreadCombines(g: Outcome, os: seq<Outcome>)
    requires |os| == |Categories| && Sound(g) && AllSound(os)
    requires g.Ok? && forall n :: 0 <= n < |os| ==> !Raised(os[n])
    requires forall j, k, i ::
               (0 <= j < k < |os| && Skipped(os[j]) && os[k].Ok? && 0 <= i < |g.value.series.values|) ==>
               !SharesName(os[k].value, SeriesLabels(g.value.series)[i])
    ensures Respond(g, os).Ok?
  {
    var gd := GeneralPart(g).value;
    GeneralLabels(g);
    var dates := DateLabels(gd.realData);
    CollectPositions(os, 0);
    CollectedDistinct(os);
    var cats := CollectFrom(os, 0).value;
    forall i | 0 <= i < |dates|
      ensures CombinedEntry(dates[i], cats, Categories).Ok?
    {
      forall p | 0 <= p < |cats|
        ensures ShapedFor(cats[p], Categories[p]) || Quiet(cats[p], dates[i])
      {
        PlacedOrQuiet(os, dates[i], p);
      }
      AttachFromOk(map[DateKey := JStr(dates[i])], cats, 0, dates[i], Categories);
    }
    CombinePointwise(dates, cats, Categories);
  }

  /** With a library that needs two full cycles, any series spanning exactly
      four months, general or category, fails the whole request with a
      library error. */
  lemma FourMonthSeriesFailsRequest(general: seq<Record>, perCategory: seq<seq<Record>>, lib: Library)
    requires |perCategory| == |Categories| && NeedsTwoCycles(lib)
    requires SpansFourMonths(general) || exists k :: 0 <= k < |perCategory| && SpansFourMonths(perCategory[k])
    ensures HandleRequest(general, perCategory, lib) == Err(LibraryError)
  {
    RequestLibraryErrorIff(general, perCategory, lib);
    if SpansFourMonths(general) {
      FourMonthsRaises(general, lib);
    } else {
      var k :| 0 <= k < |perCategory| && SpansFourMonths(perCategory[k]);
      FourMonthsRaises(perCategory[k], lib);
    }
  }
}

=== FILE: series.dfy ===
/** Building a regular monthly series from irregular dated scores: records are
    bucketed to their month, averaged within a month, laid out over every month
    from the earliest to the latest record, and empty months are filled by
    linear interpolation with each month counting as one step. */
module SeriesBuilder {
  import opened Wrappers
  import opened Months

  /** A raw record whose timestamp has already been reduced to its month. */
  datatype Record = Record(month: Month, score: real)

  /** A gap-free monthly series: `values[i]` is the score of month `start + i`. */
  datatype Series = Series(start: Month, values: seq<real>)

  /** The month of the i-th point of a series. */
  function MonthAt(s: Series, i: nat): Month {
    s.start + i
  }

  /** The month of the series' last point. */
  function LastMonth(s: Series): Month
    requires |s.values| > 0
  {
    s.start + |s.values| - 1
  }

  function Sum(xs: seq<real>): real {
    if xs == [] then 0.0 else xs[0] + Sum(xs[1..])
  }

  /** Arithmetic mean of a non-empty list of scores. */
  function Mean(xs: seq<real>): real
    requires |xs| > 0
  {
    Sum(xs) / (|xs| as real)
  }

  /** The scores of the records that fall in month `m`, in record order. */
  function ScoresIn(records: seq<Record>, m: Month): (xs: seq<real>)
    ensures |xs| <= |records|
  {
    if records == [] then []
    else
      var rest := ScoresIn(records[1..], m);
      if records[0].month == m then [records[0].score] + rest else rest
  }

  /** A month that has a record has at least one score. */
  lemma {:induction false} ScoresInHasRecord(records: seq<Record>, rec: Record)
    requires rec in records
    ensures |ScoresIn(records, rec.month)| > 0
  {
    if records[0] != rec {
      assert rec in records[1..];
      ScoresInHasRecord(records[1..], rec);
    }
  }

  /** The scores of a single record: its score when it falls in the month. */
  lemma ScoresInSingle(r: Record, m: Month)
    ensures ScoresIn([r], m) == if r.month == m then [r.score] else []
  {
    assert [r][1..] == [];
  }

  /** Collecting the scores of a month distributes over concatenation, so
      together with `ScoresInSingle` it keeps every score of the month, in
      record order, and nothing else. */
  lemma {:induction false} ScoresInAppend(a: seq<Record>, b: seq<Record>, m: Month)
    ensures ScoresIn(a + b, m) == ScoresIn(a, m) + ScoresIn(b, m)
  {
    if a == [] {
      assert a + b == b;
    } else {
      assert (a + b)[0] == a[0];
      assert (a + b)[1..] == a[1..] + b;
      ScoresInAppend(a[1..], b, m);
    }
  }

  /** Some record falls in month `m`. */
  predicate HasRecordIn(records: seq<Record>, m: Month) {
    exists r :: r in records && r.month == m
  }

  /** A month has scores exactly when some record falls in it. */
  lemma {:induction false} ScoresInIff(records: seq<Record>, m: Month)
    ensures |ScoresIn(records, m)| > 0 <==> HasRecordIn(records, m)
  {
    if records != [] {
      ScoresInIff(records[1..], m);
      if HasRecordIn(records, m) {
        var r :| r in records && r.month == m;
        if r != records[0] {
          assert r in records[1..];
        }
      }
      if HasRecordIn(records[1..], m) {
        var r :| r in records[1..] && r.month == m;
        assert r in records;
      }
    }
  }

  lemma ScoresInIffAll(records: seq<Record>)
    ensures forall m :: |ScoresIn(records, m)| > 0 <==> HasRecordIn(records, m)
  {
    forall m
      ensures |ScoresIn(records, m)| > 0 <==> HasRecordIn(records, m)
    {
      ScoresInIff(records, m);
    }
  }

  /** The monthly mean, or no value for a month without records. */
  function MonthMean(records: seq<Record>, m: Month): Option<real> {
    var xs := ScoresIn(records, m);
    if |xs| == 0 then None else Some(Mean(xs))
  }

  /** A record of the earliest month. */
  function EarliestRecord(records: seq<Record>): (e: Record)
    requires records != []
    ensures e in records
    ensures forall r :: r in records ==> e.month <= r.month
  {
    if |records| == 1 then records[0]
    else
      var rest := EarliestRecord(records[1..]);
      assert forall r :: r in records ==> r == records[0] || r in records[1..];
      if records[0].month <= rest.month then records[0] else rest
  }

  /** A record of the latest month. */
  function LatestRecord(records: seq<Record>): (l: Record)
    requires records != []
    ensures l in records
    ensures forall r :: r in records ==> r.month <= l.month
  {
    if |records| == 1 then records[0]
    else
      var rest := LatestRecord(records[1..]);
      assert forall r :: r in records ==> r == records[0] || r in records[1..];
      if records[0].month >= rest.month then records[0] else rest
  }

  function Earliest(records: seq<Record>): Month
    requires records != []
  {
    EarliestRecord(records).month
  }

  function Latest(records: seq<Record>): Month
    requires records != []
  {
    LatestRecord(records).month
  }

  /** The monthly means laid over every month from the earliest record to the
      latest, with no value for the months that have no records. */
  function Bucketed(records: seq<Record>): (raw: seq<Option<real>>)
    requires records != []
    ensures |raw| == Latest(records) - Earliest(records) + 1
    ensures forall i :: 0 <= i < |raw| ==> raw[i] == MonthMean(records, Earliest(records) + i)
    ensures forall i :: 0 <= i < |raw| ==> (raw[i].Some? <==> HasRecordIn(records, Earliest(records) + i))
  {
    ScoresInIffAll(records);
    var lo := Earliest(records);
    seq(Latest(records) - lo + 1, i => MonthMean(records, lo + i))
  }

  /** A layout whose first and last months carry a value: the only shape
      interpolation is applied to, since the range ends at record months. */
  predicate Bracketed(raw: seq<Option<real>>) {
    |raw| > 0 && raw[0].Some? && raw[|raw| - 1].Some?
  }

  /** The nearest month at or before `i` that has a value. */
  function PrevKnown(raw: seq<Option<real>>, i: nat): (a: nat)
    requires Bracketed(raw) && i < |raw|
    ensures a <= i && raw[a].Some?
    ensures forall j :: a < j <= i ==> raw[j].None?
  {
    if raw[i].Some? then i else PrevKnown(raw, i - 1)
  }

  /** The nearest month at or after `i` that has a value. */
  function NextKnown(raw: seq<Option<real>>, i: nat): (b: nat)
    requires Bracketed(raw) && i < |raw|
    ensures i <= b < |raw| && raw[b].Some?
    ensures forall j :: i <= j < b ==> raw[j].None?
    decreases |raw| - i
  {
    if raw[i].Some? then i else NextKnown(raw, i + 1)
  }

  /** The point `k` steps along the straight line that goes from `lo` to `hi`
      in `d` steps. */
  function Lerp(lo: real, hi: real, k: nat, d: nat): real
    requires 0 < d
  {
    lo + (hi - lo) * ((k as real) / (d as real))
  }

  /** The value interpolation gives month `i`: its own value when it has one,
      otherwise the line between the nearest valued months on either side. */
  function InterpolatedAt(raw: seq<Option<real>>, i: nat): real
    requires Bracketed(raw) && i < |raw|
  {
    var a := PrevKnown(raw, i);
    var b := NextKnown(raw, i);
    if a == b then raw[a].value
    else Lerp(raw[a].value, raw[b].value, i - a, b - a)
  }

  /** Reference definition of positional linear interpolation. */
  function Interpolate(raw: seq<Option<real>>): (s: seq<real>)
    requires Bracketed(raw)
    ensures |s| == |raw|
    ensures forall i :: 0 <= i < |raw| && raw[i].Some? ==> s[i] == raw[i].value
  {
    seq(|raw|, i requires 0 <= i < |raw| => InterpolatedAt(raw, i))
  }

  /** The next valued month is determined by the gap that precedes it. */
  lemma {:induction false} NextKnownIs(raw: seq<Option<real>>, i: nat, b: nat)
    requires Bracketed(raw) && i <= b < |raw| && raw[b].Some?
    requires forall j :: i <= j < b ==> raw[j].None?
    ensures NextKnown(raw, i) == b
    decreases b - i
  {
    if i < b {
      NextKnownIs(raw, i + 1, b);
    }
  }

  /** Fills the empty months in one left-to-right pass, remembering the last
      valued month and scanning ahead to the next one at each gap. */
  method FillGaps(raw: seq<Option<real>>) returns (filled: seq<real>)
    requires Bracketed(raw)
    ensures |filled| == |raw|
    ensures forall i :: 0 <= i < |raw| && raw[i].Some? ==> filled[i] == raw[i].value
    ensures filled == Interpolate(raw)
  {
    filled := [];
    var prev := 0;
    var i := 0;
    while i < |raw|
      invariant 0 <= i <= |raw|
      invariant |filled| == i
      invariant forall j :: 0 <= j < i ==> filled[j] == InterpolatedAt(raw, j)
      invariant 0 < i ==> prev == PrevKnown(raw, i - 1)
      invariant prev < |raw| && raw[prev].Some?
    {
      if raw[i].Some? {
        filled := filled + [raw[i].value];
        prev := i;
      } else {
        var next := i + 1;
        while raw[next].None?
          invariant i < next < |raw|
          invariant forall j :: i <= j < next ==> raw[j].None?
          decreases |raw| - next
        {
          next := next + 1;
        }
        NextKnownIs(raw, i, next);
        filled := filled + [Lerp(raw[prev].value, raw[next].value, i - prev, next - prev)];
      }
      i := i + 1;
    }
  }

  /** The layout's entry for a month in range is that month's mean. */
  lemma BucketedAt(records: seq<Record>, m: Month)
    requires records != [] && Earliest(records) <= m <= Latest(records)
    ensures Bucketed(records)[m - Earliest(records)] == MonthMean(records, m)
  {
  }

  /** The laid-out range starts and ends at months that have records. */
  lemma BucketedBracketed(records: seq<Record>)
    requires records != []
    ensures Bracketed(Bucketed(records))
  {
    var raw := Bucketed(records);
    ScoresInHasRecord(records, EarliestRecord(records));
    ScoresInHasRecord(records, LatestRecord(records));
    assert raw[0] == MonthMean(records, Earliest(records));
    assert raw[|raw| - 1] == MonthMean(records, Latest(records));
  }

  /** The regular series of a list of records, or none for an empty list: one
      point per month from the earliest record's month to the latest's. */
  function Build(records: seq<Record>): (r: Option<Series>)
    ensures r.None? <==> records == []
    ensures r.Some? ==> r.value.start == Earliest(records)
    ensures r.Some? ==> |r.value.values| == Latest(records) - Earliest(records) + 1
  {
    if records == [] then None
    else
      BucketedBracketed(records);
      Some(Series(Earliest(records), Interpolate(Bucketed(records))))
  }

  /** Every record's month lies in the built range, and its point is the mean
      of that month's scores, untouched by interpolation. */
  lemma BuildKeepsMeans(records: seq<Record>, rec: Record)
    requires rec in records
    ensures Build(records).Some?
    ensures |ScoresIn(records, rec.month)| > 0
    ensures var s := Build(records).value;
      && s.start <= rec.month <= LastMonth(s)
      && s.values[rec.month - s.start] == Mean(ScoresIn(records, rec.month))
  {
    var lo, hi := Earliest(records), Latest(records);
    assert lo <= rec.month <= hi;
    BucketedBracketed(records);
    var raw := Bucketed(records);
    var k := rec.month - lo;
    assert 0 <= k < |raw|;
    ScoresInHasRecord(records, rec);
    var xs := ScoresIn(records, rec.month);
    var mean := Mean(xs);
    assert MonthMean(records, rec.month) == Some(mean);
    BucketedAt(records, rec.month);
    assert raw[k] == Some(mean);
    var s := Build(records).value;
    assert s == Series(lo, Interpolate(raw));
    assert Interpolate(raw)[k] == mean;
  }

  /** A month with no records lies strictly inside the range and gets the
      linear interpolation between its nearest valued neighbours. */
  lemma BuildFillsGaps(records: seq<Record>, i: nat)
    requires records != [] && i <= Latest(records) - Earliest(records)
    requires ScoresIn(records, Earliest(records) + i) == []
    ensures 0 < i < Latest(records) - Earliest(records)
    ensures Bracketed(Bucketed(records))
    ensures Build(records).value.values[i] == InterpolatedAt(Bucketed(records), i)
  {
    BucketedBracketed(records);
    var raw := Bucketed(records);
    assert raw[i] == None;
    assert Build(records) == Some(Series(Earliest(records), Interpolate(raw)));
  }

  /** A step along a segment stays between the segment's ends. */
  lemma LerpBetween(lo: real, hi: real, k: nat, d: nat)
    requires 0 < d && k <= d
    ensures Min(lo, hi) <= Lerp(lo, hi, k, d) <= Max(lo, hi)
  {
    var t := (k as real) / (d as real);
    assert 0.0 <= t <= 1.0;
    var x := if lo <= hi then hi - lo else lo - hi;
    NonNegativeProduct(x, t);
    NonNegativeProduct(x, 1.0 - t);
    assert x * (1.0 - t) == x - x * t;
    if lo <= hi {
      assert (hi - lo) * t == x * t;
    } else {
      assert (hi - lo) * t == -(x * t);
    }
  }

  lemma NonNegativeProduct(x: real, y: real)
    requires 0.0 <= x && 0.0 <= y
    ensures 0.0 <= x * y
  {
  }

  function Min(x: real, y: real): real {
    if x <= y then x else y
  }

  function Max(x: real, y: real): real {
    if x <= y then y else x
  }

  /** Interpolating between two points of a line lands on that line. */
  lemma LerpOnLine(lo: real, hi: real, c: real, slope: real, a: nat, b: nat, i: nat)
    requires a <= i <= b && a < b
    requires lo == c + slope * (a as real) && hi == c + slope * (b as real)
    ensures Lerp(lo, hi, i - a, b - a) == c + slope * (i as real)
  {
    var d := (b - a) as real;
    var k := (i - a) as real;
    assert hi - lo == slope * d;
    assert d * (k / d) == k;
    assert slope * d * (k / d) == slope * k;
    assert (i as real) == (a as real) + k;
  }

  /** Every filled month lies between the values of its nearest valued
      neighbours: interpolation never overshoots. */
  lemma {:induction false} InterpolationBetweenNeighbours(raw: seq<Option<real>>, i: nat)
    requires Bracketed(raw) && i < |raw|
    ensures var a, b := PrevKnown(raw, i), NextKnown(raw, i);
      Min(raw[a].value, raw[b].value) <= Interpolate(raw)[i] <= Max(raw[a].value, raw[b].value)
  {
    var a, b := PrevKnown(raw, i), NextKnown(raw, i);
    if a != b {
      LerpBetween(raw[a].value, raw[b].value, i - a, b - a);
    }
  }

  /** Interpolation is linear in the month position: when every valued month
      lies on one line, every filled month lies on it too. */
  lemma InterpolationOnLine(raw: seq<Option<real>>, c: real, slope: real)
    requires Bracketed(raw)
    requires forall j :: 0 <= j < |raw| && raw[j].Some? ==> raw[j].value == c + slope * (j as real)
    ensures forall i :: 0 <= i < |raw| ==> Interpolate(raw)[i] == c + slope * (i as real)
  {
    forall i | 0 <= i < |raw|
      ensures Interpolate(raw)[i] == c + slope * (i as real)
    {
      var a, b := PrevKnown(raw, i), NextKnown(raw, i);
      assert raw[a].value == c + slope * (a as real);
      assert raw[b].value == c + slope * (b as real);
      PointOnLine(raw, c, slope, i, a, b);
    }
  }

  /** A month whose nearest valued neighbours lie on a line is filled with a
      point of that line. */
  lemma PointOnLine(raw: seq<Option<real>>, c: real, slope: real, i: nat, a: nat, b: nat)
    requires Bracketed(raw) && i < |raw|
    requires a == PrevKnown(raw, i) && b == NextKnown(raw, i)
    requires raw[a].value == c + slope * (a as real) && raw[b].value == c + slope * (b as real)
    ensures Interpolate(raw)[i] == c + slope * (i as real)
  {
    if a == b {
      assert a == i;
    } else {
      GapOnLine(raw, c, slope, i, a, b);
    }
  }

  /** A month strictly between two valued months on a line is filled with a
      point of that line. */
  lemma GapOnLine(raw: seq<Option<real>>, c: real, slope: real, i: nat, a: nat, b: nat)
    requires Bracketed(raw) && i < |raw|
    requires a == PrevKnown(raw, i) && b == NextKnown(raw, i) && a != b
    requires raw[a].value == c + slope * (a as real) && raw[b].value == c + slope * (b as real)
    ensures Interpolate(raw)[i] == c + slope * (i as real)
  {
    assert Interpolate(raw)[i] == Lerp(raw[a].value, raw[b].value, i - a, b - a);
    LerpOnLine(raw[a].value, raw[b].value, c, slope, a, b, i);
  }

  /** The three records of the gap-filling example below. */
  function ExampleRecords(m1: Month): seq<Record> {
    [Record(m1, 1.0), Record(m1 + 2, 2.0), Record(m1 + 4, 3.0)]
  }

  /** The example's monthly means over its five-month range. */
  lemma ExampleMeans(m1: Month, m: Month)
    requires m1 <= m <= m1 + 4
    ensures MonthMean(ExampleRecords(m1), m)
              == if m == m1 then Some(1.0) else if m == m1 + 2 then Some(2.0)
                 else if m == m1 + 4 then Some(3.0) else None
  {
    var records := ExampleRecords(m1);
    var r1, r2 := records[1..], records[2..];
    assert r1 == [Record(m1 + 2, 2.0), Record(m1 + 4, 3.0)];
    assert r2 == [Record(m1 + 4, 3.0)] && r2[1..] == [] && r1[1..] == r2;
    assert ScoresIn(r2[1..], m) == [];
    assert ScoresIn(r2, m) == (if m == m1 + 4 then [3.0] else []);
    assert ScoresIn(r1, m) == (if m == m1 + 2 then [2.0] else []) + ScoresIn(r2, m);
    assert Mean([1.0]) == 1.0 && Mean([2.0]) == 2.0 && Mean([3.0]) == 3.0;
  }

  lemma ExampleBucketed(m1: Month)
    ensures Earliest(ExampleRecords(m1)) == m1
    ensures Bucketed(ExampleRecords(m1)) == [Some(1.0), None, Some(2.0), None, Some(3.0)]
  {
    var records := ExampleRecords(m1);
    assert Earliest(records) == m1;
    assert Latest(records) == m1 + 4;
    var raw := Bucketed(records);
    forall i | 0 <= i < 5
      ensures raw[i] == [Some(1.0), None, Some(2.0), None, Some(3.0)][i]
    {
      ExampleMeans(m1, m1 + i);
    }
  }

  /** Records in months 1, 3 and 5 with scores 1, 2 and 3 give a five-month
      series whose months 2 and 4 are filled with 1.5 and 2.5. */
  lemma GapsExample(y: int)
    ensures Build(ExampleRecords(FromYearMonth(y, 1)))
              == Some(Series(FromYearMonth(y, 1), [1.0, 1.5, 2.0, 2.5, 3.0]))
  {
    var m1 := FromYearMonth(y, 1);
    ExampleBucketed(m1);
    ExampleInterpolated();
  }

  lemma ExampleInterpolated()
    ensures Interpolate([Some(1.0), None, Some(2.0), None, Some(3.0)]) == [1.0, 1.5, 2.0, 2.5, 3.0]
  {
    var raw := [Some(1.0), None, Some(2.0), None, Some(3.0)];
    forall j | 0 <= j < |raw| && raw[j].Some?
      ensures raw[j].value == 1.0 + 0.5 * (j as real)
    {
      assert j == 0 || j == 2 || j == 4;
    }
    InterpolationOnLine(raw, 1.0, 0.5);
    var s := Interpolate(raw);
    assert s[0] == 1.0 && s[1] == 1.5 && s[2] == 2.0 && s[3] == 2.5 && s[4] == 3.0;
  }

  /** The mean of records that all carry the same score is that score. */
  lemma {:induction false} SumOfConstant(xs: seq<real>, c: real)
    requires forall j :: 0 <= j < |xs| ==> xs[j] == c
    ensures Sum(xs) == (|xs| as real) * c
  {
    if xs != [] {
      SumOfConstant(xs[1..], c);
    }
  }

  lemma MeanOfConstant(xs: seq<real>, c: real)
    requires |xs| > 0
    requires forall j :: 0 <= j < |xs| ==> xs[j] == c
    ensures Mean(xs) == c
  {
    SumOfConstant(xs, c);
  }

  /** A monthly mean lies between the smallest and largest score averaged. */
  lemma {:induction false} SumBounds(xs: seq<real>, lo: real, hi: real)
    requires forall j :: 0 <= j < |xs| ==> lo <= xs[j] <= hi
    ensures (|xs| as real) * lo <= Sum(xs) <= (|xs| as real) * hi
  {
    if xs != [] {
      SumBounds(xs[1..], lo, hi);
    }
  }

  lemma MeanBounds(xs: seq<real>, lo: real, hi: real)
    requires |xs| > 0
    requires forall j :: 0 <= j < |xs| ==> lo <= xs[j] <= hi
    ensures lo <= Mean(xs) <= hi
  {
    SumBounds(xs, lo, hi);
    var n := |xs| as real;
    assert n * lo / n == lo && n * hi / n == hi;
  }

  /** The scores collected for a month all come from the records. */
  lemma {:induction false} ScoresInAreScores(records: seq<Record>, m: Month, c: real)
    requires forall r :: r in records ==> r.score == c
    ensures forall j :: 0 <= j < |ScoresIn(records, m)| ==> ScoresIn(records, m)[j] == c
  {
    if records != [] {
      assert forall r :: r in records[1..] ==> r in records;
      ScoresInAreScores(records[1..], m, c);
    }
  }

  /** Records that all carry one score give that score to every month that
      has records. */
  lemma BucketedFlat(records: seq<Record>, c: real)
    requires records != []
    requires forall r :: r in records ==> r.score == c
    ensures forall j :: 0 <= j < |Bucketed(records)| && Bucketed(records)[j].Some? ==>
              Bucketed(records)[j].value == c
  {
    var raw := Bucketed(records);
    var lo := Earliest(records);
    forall j | 0 <= j < |raw| && raw[j].Some?
      ensures raw[j].value == c
    {
      var xs := ScoresIn(records, lo + j);
      BucketedAt(records, lo + j);
      ScoresInAreScores(records, lo + j, c);
      MeanOfConstant(xs, c);
    }
  }

  /** Known values that are all equal interpolate to a constant. */
  lemma InterpolateFlat(raw: seq<Option<real>>, c: real)
    requires Bracketed(raw)
    requires forall j :: 0 <= j < |raw| && raw[j].Some? ==> raw[j].value == c
    ensures forall i :: 0 <= i < |raw| ==> Interpolate(raw)[i] == c
  {
    forall j | 0 <= j < |raw| && raw[j].Some?
      ensures raw[j].value == c + 0.0 * (j as real)
    {
    }
    InterpolationOnLine(raw, c, 0.0);
    forall i | 0 <= i < |raw|
      ensures Interpolate(raw)[i] == c
    {
      assert Interpolate(raw)[i] == c + 0.0 * (i as real);
    }
  }

  /** Records that all carry one score build a series flat at that score, gaps
      included. */
  lemma BuildFlat(records: seq<Record>, c: real)
    requires records != []
    requires forall r :: r in records ==> r.score == c
    ensures forall i :: 0 <= i < |Build(records).value.values| ==> Build(records).value.values[i] == c
  {
    var raw := Bucketed(records);
    BucketedBracketed(records);
    BucketedFlat(records, c);
    InterpolateFlat(raw, c);
    assert Build(records).value.values == Interpolate(raw);
  }
}

=== FILE: shaping.dfy ===
/** Output records.  A record is a JSON object: a finite map from field names
    to JSON scalars.  Dates appear as year-less month names; the general series
    and each category use their own field names. */
module Shaping {
  import opened Months
  import opened SeriesBuilder
  import opened Forecaster

  datatype Json = JStr(s: string) | JNum(x: real) | JNull

  type Entry = map<string, Json>

  const DateKey: string := "date"

  /** Whose series a record belongs to: the general one or a named category. */
  datatype Owner = General | Category(name: string)

  function OwnerSuffix(o: Owner): string {
    match o
    case General => ""
    case Category(c) => c
  }

  /** The field holding an observed score: `score` for the general series,
      `realScore<category>` for a category. */
  function ObservedKey(o: Owner): string {
    match o
    case General => "score"
    case Category(c) => RealKey(c)
  }

  function RealKey(c: string): string {
    "realScore" + c
  }

  /** The field holding a predicted score: `HWScore` plus the category. */
  function PredictedKey(o: Owner): string {
    HwKey(OwnerSuffix(o))
  }

  function HwKey(c: string): string {
    "HWScore" + c
  }

  /** The always-null field of a prediction record: `RealScore` plus the
      category. */
  function NullKey(o: Owner): string {
    "RealScore" + OwnerSuffix(o)
  }

  /** No two field families share a name, and each family tells its categories
      apart. */
  lemma KeyFamiliesDisjoint(a: string, b: string)
    ensures RealKey(a) != HwKey(b) && RealKey(a) != NullKey(Category(b)) && HwKey(a) != NullKey(Category(b))
    ensures RealKey(a) != DateKey && HwKey(a) != DateKey && NullKey(Category(a)) != DateKey
    ensures RealKey(a) == RealKey(b) <==> a == b
    ensures HwKey(a) == HwKey(b) <==> a == b
  {
    assert RealKey(a)[0] == 'r' && HwKey(b)[0] == 'H' && NullKey(Category(b))[0] == 'R';
    assert DateKey[0] == 'd';
    assert RealKey(a)[9..] == a && RealKey(b)[9..] == b;
    assert HwKey(a)[7..] == a && HwKey(b)[7..] == b;
  }

  lemma GeneralKeysDistinct()
    ensures ObservedKey(General) != DateKey
    ensures PredictedKey(General) != DateKey && NullKey(General) != DateKey
    ensures PredictedKey(General) != NullKey(General)
  {
    assert PredictedKey(General) == "HWScore" && NullKey(General) == "RealScore";
  }

  lemma ObservedKeyFacts(o: Owner)
    ensures ObservedKey(o) != DateKey
    ensures PredictedKey(o) != DateKey && NullKey(o) != DateKey && PredictedKey(o) != NullKey(o)
  {
    match o
    case General => GeneralKeysDistinct();
    case Category(c) => KeyFamiliesDisjoint(c, c);
  }

  /** One record per month of the series, in order, holding exactly the month's
      name and its score. */
  function RealData(s: Series, o: Owner): (rs: seq<Entry>)
    ensures |rs| == |s.values|
    ensures forall i :: 0 <= i < |rs| ==>
              && rs[i].Keys == {DateKey, ObservedKey(o)}
              && rs[i][DateKey] == JStr(Label(MonthAt(s, i)))
              && rs[i][ObservedKey(o)] == JNum(s.values[i])
  {
    ObservedKeyFacts(o);
    seq(|s.values|, i requires 0 <= i < |s.values| =>
      map[DateKey := JStr(Label(MonthAt(s, i))), ObservedKey(o) := JNum(s.values[i])])
  }

  /** One record per window month, in order, holding exactly the month's name,
      a null observed score and the predicted score. */
  function PredictData(f: Forecast, o: Owner): (rs: seq<Entry>)
    requires |f.predicted| == |f.window|
    ensures |rs| == |f.window|
    ensures forall i :: 0 <= i < |rs| ==>
              && rs[i].Keys == {DateKey, NullKey(o), PredictedKey(o)}
              && rs[i][DateKey] == JStr(Label(f.window[i]))
              && rs[i][NullKey(o)] == JNull
              && rs[i][PredictedKey(o)] == JNum(f.predicted[i])
  {
    ObservedKeyFacts(o);
    seq(|f.window|, i requires 0 <= i < |f.window| =>
      map[DateKey := JStr(Label(f.window[i])), NullKey(o) := JNull, PredictedKey(o) := JNum(f.predicted[i])])
  }

  /** The month names of a series, in series order. */
  function SeriesLabels(s: Series): (ls: seq<string>)
    ensures |ls| == |s.values|
  {
    seq(|s.values|, i requires 0 <= i < |s.values| => Label(MonthAt(s, i)))
  }

  /** Reading the date and score fields back from the shaped records gives the
      series' month names and values, so nothing is lost but the year. */
  lemma RealDataReadsBack(s: Series, o: Owner)
    ensures forall i :: 0 <= i < |s.values| ==>
              RealData(s, o)[i][DateKey] == JStr(SeriesLabels(s)[i])
              && RealData(s, o)[i][ObservedKey(o)].x == s.values[i]
  {
  }

  /** A series longer than a year has a repeated month name twelve points
      apart. */
  lemma LongSeriesRepeatsLabels(s: Series, i: nat)
    requires i + 12 < |s.values|
    ensures SeriesLabels(s)[i] == SeriesLabels(s)[i + 12]
  {
    LabelRepeatsAfterYear(MonthAt(s, i));
  }

  /** Within any twelve consecutive points, the month names are distinct. */
  lemma YearOfLabelsDistinct(s: Series, i: nat, j: nat)
    requires i < j < |s.values| && j - i < 12
    ensures SeriesLabels(s)[i] != SeriesLabels(s)[j]
  {
    LabelsEqualIff(MonthAt(s, i), MonthAt(s, j));
    assert (MonthAt(s, j) - MonthAt(s, i)) == j - i;
  }
}

=== FILE: wrappers.dfy ===
/** Failure-compatible wrappers shared by the pipeline modules: an optional
    value and a result that carries either a value or an error. */
module Wrappers {

  datatype Option<+T> = None | Some(value: T) {

    predicate IsFailure() {
      None?
    }

    function PropagateFailure<U>(): Option<U>
      requires None?
    {
      None
    }

    function Extract(): T
      requires Some?
    {
      value
    }
  }

  datatype Result<+R, +E> = Ok(value: R) | Err(error: E) {

    predicate IsFailure() {
      Err?
    }

    function PropagateFailure<U>(): Result<U, E>
      requires Err?
    {
      Err(error)
    }

    function Extract(): R
      requires Ok?
    {
      value
    }
  }
}
